=== FILE: README.md ===
# stdlike::recursive_directory_iterator — traversal model

This project models the core of `stdlike::recursive_directory_iterator`. It is a
depth-first, pre-order walk of a directory tree that yields one `directory` entry
per node and keeps an explicit stack of open `DIR*` handles. The model covers:

- **`directory_options`** (`options.dfy`, module `Options`): the enumeration,
  `| & ^ |= &= ^=`, and the `HasOption` test. All of them are defined bit by bit
  on the underlying integer.
- **The `directory` snapshot** (`entry.dfy`, module `Entries`): how a `stat`
  record and a symlink flag become the node-kind flags, the size, the link count
  and the modification time.
- **The filesystem** (`filesystem.dfy`, module `FileSystems`): an abstract
  oracle. It records, for every path, what `lstat`, `stat` and `opendir` return.
  An opened handle produces a fixed list of names through `readdir`, then either
  ends cleanly or reports a read error. A call fails on exactly the paths missing
  from its map.
- **The `iterator_impl` engine** (`traversal.dfy`, module `Traversal`):
  - the constructor, the destructor and `Advance`;
  - the per-name decision, covering lstat, a followed symlink's stat, opendir,
    and the `skip_permission_denied` gate;
  - the body of `pop()`.

  Handles are numbered in opening order. The state counts the handles opened
  and logs every `closedir`. From that the model proves that every opened
  handle is either still on the stack or closed exactly once.
- **The iterator surface** (`iterator.dfy`, module `Iterators`): construction,
  `++`, `==`, `depth()`, `pop()`, `is_end()`, `begin()`, `end()` and `*`. The
  shared `iterator_impl` is released when the traversal reaches its end.

`wrappers.dfy` holds the usual `Option` and `Result` types.

Points of the code's behaviour worth stating plainly:

- **Node-kind flags.** The six kind flags satisfy *at most one*: an entry built
  from a symlink's own `lstat` data, or from a file type none of the flags
  names, has none set. `Entries.MakeEntry` promises at most one, and none for
  a symlink's own metadata.
- **Depth of a directory entry.** The depth is incremented when a directory is
  opened, before its entry is returned. So `depth()` on a directory entry
  already reports the depth of that directory's children (`Traversal.EntryDepth`).
- **`pop()` right after a directory entry.** It closes the frame that was just
  opened for that entry, not the frame the entry came from.
- **Storing the entry before an `opendir` throw.** A failed `opendir` on a plain
  directory throws after the entry has been stored as the current one
  (rec_dir_it.cpp:178-191). On a followed symlink it throws before
  (rec_dir_it.cpp:161-173). `Traversal.Decision.Fail` records which happened,
  and `Traversal.Advance` promises the current entry that results.

## Model

| member | source | states |
|---|---|---|
| Options.FromBits | rec_dir_it.hpp:16-20 | the value built from two flag bits has exactly those bits and no others |
| Options.EnumeratorBits | rec_dir_it.hpp:16-20 | `none` has no bit, `follow_directory_symlink` only bit 0, `skip_permission_denied` only bit 1 |
| Options.SameBits | rec_dir_it.hpp:16-20 | two option values that agree on both flag bits are equal |
| Options.Or | rec_dir_it.hpp:22-24 | each bit of `a \| b` is set iff it is set in `a` or in `b` |
| Options.And | rec_dir_it.hpp:26-28 | each bit of `a & b` is set iff it is set in both |
| Options.Xor | rec_dir_it.hpp:30-32 | each bit of `a ^ b` is set iff it is set in exactly one |
| Options.OrCommutative | rec_dir_it.hpp:22-24 | `a \| b == b \| a` |
| Options.OrAssociative | rec_dir_it.hpp:22-24 | `(a \| b) \| c == a \| (b \| c)` |
| Options.OrIdentity | rec_dir_it.hpp:22-24 | `none` is the identity of `\|` on both sides |
| Options.AndLaws | rec_dir_it.hpp:26-28 | `a & none == none` and `a & a == a` |
| Options.XorLaws | rec_dir_it.hpp:30-32 | `a ^ a == none` and `a ^ none == a` |
| Options.AndIsSubset | rec_dir_it.cpp:63-65 | `(a & f) == f` holds exactly when every bit of `f` is set in `a` |
| Options.HasOption | rec_dir_it.cpp:63-65 | `HasOption(options, flag)` is true iff every bit of `flag` is set in `options` |
| Options.HasNone | rec_dir_it.cpp:63-65 | every option set contains `none` |
| Options.FlagsAreIndependent | rec_dir_it.cpp:63-65 | `HasOption` reads each named flag from its own bit; adding `skip_permission_denied` or masking to `follow_directory_symlink` leaves the follow test unchanged |
| Options.OrAssign | rec_dir_it.hpp:34-37 | after `a \|= b`, `a` contains both old `a` and `b`, and is contained in anything that contains both |
| Options.AndAssign | rec_dir_it.hpp:39-42 | after `a &= b`, `a` is contained in both, and contains anything both contain |
| Options.XorAssign | rec_dir_it.hpp:44-47 | `a ^= b` is undone by `^ b`, and gives `none` iff `a == b` |
| Options.XorUndoes | rec_dir_it.hpp:30-32 | `(a ^ b) ^ b == a` |
| FileSystems.FileTypeBits | rec_dir_it.cpp:8-13 | the `S_IFMT` part of a mode is bits 12-15: a multiple of 0x1000 below 0x10000 that, added to the low 12 bits, gives the low 16 bits of the mode |
| Entries.DefaultEntry | rec_dir_it.hpp:70-80 | a default `directory` has an empty path, no flags set and zero size, link count and time |
| Entries.MakeEntry | rec_dir_it.cpp:6-17 | each kind flag is set iff the mode has that file type; at most one is set, none for a symlink's own metadata; size only for regular files; path, symlink flag, link count and time copied |
| Entries.SymlinkFlagOnlyFromArgument | rec_dir_it.cpp:6-7 | the symlink flag is the argument alone: the same metadata gives the same entry apart from that flag |
| Traversal.TopDown | rec_dir_it.cpp:105-110 | the destructor closes exactly one handle per frame on the stack |
| Traversal.TopDownOrder | rec_dir_it.cpp:105-110 | the destructor closes the handles from the top frame down: the i-th handle closed is that of the i-th frame counted from the top |
| Traversal.RangeCount | rec_dir_it.cpp:105-110 | each handle number below the count of opened handles occurs once among them |
| Traversal.TopDownBottom | rec_dir_it.cpp:105-110 | the bottom frame of the stack is closed last |
| Traversal.NoDoubleClose | rec_dir_it.cpp:105-110 | in an accounted state no handle has been closed twice |
| Traversal.ClosedIsNotOpen | rec_dir_it.cpp:126-127 | a closed handle is no longer on the stack |
| Traversal.Release | rec_dir_it.cpp:105-110 | after the destructor, every handle ever opened has been closed exactly once and no other handle has been closed |
| Traversal.ChainLength | rec_dir_it.cpp:136 | each frame's path is one component longer than the frame beneath it |
| Traversal.Classify | rec_dir_it.cpp:136-193 | per name read: a skip happens only under `skip_permission_denied`, an error never does, errors name the path, and yields are entries for that path |
| Traversal.EntryPolicy | rec_dir_it.cpp:139-193 | a failed lstat never yields; the symlink flag comes from lstat; metadata comes from lstat unless a followed symlink resolves to a directory, then from stat; only the plain-directory opendir failure stores the entry before throwing |
| Traversal.DescentPolicy | rec_dir_it.cpp:160-192 | a frame is pushed exactly for a yielded directory that opens; a directory that does not open is yielded only under `skip_permission_denied`; a symlink is descended only under `follow_directory_symlink` |
| Traversal.SymlinkPolicy | rec_dir_it.cpp:146-179 | an unfollowed symlink, or a followed one whose target is not a directory, is yielded from its lstat data and not entered; a followed symlink to an openable directory is entered with its target's metadata |
| Traversal.SkipOptionGatesErrors | rec_dir_it.cpp:139-193 | setting `skip_permission_denied` turns failures other than opendir into skips, turns opendir failures into non-descending yields, and changes nothing else; with it set, a name is skipped exactly when its lstat fails or it is a followed symlink whose stat fails |
| Traversal.FailureSites | rec_dir_it.cpp:139-193 | a failed lstat, or a followed symlink's failed stat, is skipped or thrown as that failure; a readable entry that is neither a directory nor a followed symlink is yielded from its lstat data and not entered; a directory that does not open throws when `skip_permission_denied` is unset, with its entry stored first for a plain directory and not for a followed symlink |
| Traversal.YieldedEntryPath | rec_dir_it.cpp:132-136 | a yielded entry's path is the path of the frame it was read from plus the name read, every name read before it in that frame was passed over, and the decision for it was a yield |
| Traversal.EntryBelowRoot | rec_dir_it.cpp:132-136 | an entry the walk is positioned on lies strictly below the root: its path extends the root's path by at least one component |
| Traversal.EntryDepth | rec_dir_it.cpp:181-193 | a yielded entry lies `depth` components below the root, or `depth + 1` when its directory frame was not just pushed |
| Traversal.Advance | rec_dir_it.cpp:112-196 | the next entry is the first name, in stack order, that is not `.`/`..` and not skipped. Everything passed over was skippable. Exhausted frames are closed top down. A frame is pushed exactly for a directory that opens. Errors are thrown only without `skip_permission_denied`. At the end every frame is closed and the end flag is set. A throw happens only on a read error after every remaining name was passed over, or on the decision for a name other than `.`/`..`; the current entry is then the one stored before the throw (a plain directory whose `opendir` failed) or the previous one |
| Traversal.AdvanceSurvivors | rec_dir_it.cpp:112-196 | `Advance` leaves the frames below the one it reads unchanged; every old frame still on the stack keeps its index and has at most been read further, and any other frame is the one it just opened |
| Traversal.AdvanceExtendsLog | rec_dir_it.cpp:126-127 | `Advance` only appends to the record of closed handles |
| Traversal.ClosedStaysClosed | rec_dir_it.cpp:126-127 | a handle once closed never returns to the stack of a later state |
| Traversal.PopFrame | rec_dir_it.cpp:276-286 | `pop()` closes the top handle first, that handle is never on the stack again, and it continues as `Advance` from the popped state |
| Traversal.EndState | rec_dir_it.cpp:74-75 | the default `iterator_impl` is at its end with an empty stack |
| Traversal.FirstAdvanceThrows | rec_dir_it.cpp:92-95 | from the freshly opened root, an unreadable first name makes `Advance` throw with the root handle still open |
| Traversal.RootCheck | rec_dir_it.cpp:78-101 | the constructor stops before any `Advance` exactly when the root cannot be lstat-ed, is not a directory, or does not open; it ends quietly only under `skip_permission_denied`, a non-directory root throws `NotADirectory` whatever the options, and a directory root that does not open throws `OpenFailed` when it throws |
| Traversal.OpenRoot | rec_dir_it.cpp:92-95 | the result is exactly one `Advance` from the freshly pushed root frame; the root frame stays at the bottom, the first entry is a child of the root, a throw leaves the root handle open, and an unreadable first name throws its lstat failure |
| Traversal.ConstructAsWritten | rec_dir_it.cpp:77-103 | as written, the early outcomes are those of `Traversal.RootCheck`; once the root opens, a built state is the first `Advance` from the root, and a throw is one that `Advance` raises from there with the handles opened and closed as `Advance` left them, so the root handle stays unclosed |
| Traversal.ConstructOpened | rec_dir_it.cpp:92-95 | once the root opens, a built state is the first `Advance` from the root frame, and a throw is one that `Advance` can raise from there, with every opened handle released |
| Traversal.Construct | rec_dir_it.cpp:77-103 | when the root does not open, the outcome is the one `Traversal.RootCheck` gives. Under `skip_permission_denied` the only possible error is a non-directory root. A built state is valid, with the root frame at the bottom and a first entry that is a child of the root. No handle is left open when construction throws, and an unreadable first name throws its lstat failure with handle 0 closed. When the root opens, a built state is the result of the first `Advance` from the root frame, so it holds the first non-skippable name or is at its end, and a throw is one that `Advance` raises from there |
| Iterators.End | rec_dir_it.cpp:296-298 | `end()` is a well-formed iterator that is at its end |
| Iterators.Open | rec_dir_it.cpp:208-211 | constructing over a root gives the constructor's errors, or an iterator equal to `end()` when skip suppresses the failure; when the root opens, the iterator holds the result of the first `Advance` from the root frame, and an error is one that `Advance` raises from there |
| Iterators.Increment | rec_dir_it.cpp:242-251 | `++` on an end iterator changes nothing. Otherwise it yields the next entry, or releases the state at the end after every remaining frame ran out. A throw keeps the state, happens only without `skip_permission_denied`, never on `.`/`..`, and leaves as current entry the one stored before the throw or the previous one. A live result keeps the iterator's options |
| Iterators.IsEnd | rec_dir_it.cpp:288-290 | a well-formed iterator is at its end exactly when it holds no state or no directory is open |
| Iterators.Current | rec_dir_it.cpp:234-236 | `*it` on a live, positioned iterator is an entry strictly below the root of the walk |
| Iterators.Begin | rec_dir_it.cpp:292-294 | `begin()` is equal to the iterator, at its end exactly when it is, and at the same depth |
| Iterators.NotEqual | rec_dir_it.cpp:265-267 | `!=` holds exactly when one iterator is at its end and the other is not, or both are live with entries on different paths |
| Iterators.Equal | rec_dir_it.cpp:253-263 | two end iterators are equal, an end and a live one are not, and live ones are equal iff their entries' paths are |
| Iterators.EqualIsEquivalence | rec_dir_it.cpp:253-263 | `==` is reflexive, symmetric and transitive |
| Iterators.Depth | rec_dir_it.cpp:269-274 | `depth()` is -1 exactly at the end, otherwise the number of frames below the top |
| Iterators.DepthCountsComponents | rec_dir_it.cpp:269-274 | a live iterator's `depth()` is the number of path components between the root and the entry's parent, or the entry itself when it is a directory that was just opened |
| Iterators.Pop | rec_dir_it.cpp:276-286 | `pop()` without state or frames changes nothing. Otherwise it closes the top directory for good, keeps the frames beneath it, and continues the walk after it: the state is released only when every frame beneath ran out, a live result is the next entry after the popped frame, and a throw is one `Advance` raises from the popped state. A live result keeps the iterator's options |

## Left out

- Real system calls. `lstat`, `stat`, `opendir`, `readdir` and `closedir` are replaced by the abstract filesystem, which is fixed for the whole traversal. Concurrent changes to the tree are not modelled.
- `errno` handling is reduced to two outcomes: a clean end of listing, or a read error after the last name.
- The exception message strings are left out. Each throw site is one `Error` constructor carrying the path.
- Shared ownership, copy and move of the `shared_ptr` to `iterator_impl` are not modelled: copies alias one state, so one value stands for all of them. `begin()` returns the iterator unchanged. `operator->` returns a raw pointer and is not modelled; `operator*` is `Iterators.Current`.
- `const char*` construction is not modelled separately from the `std::filesystem::path` one. Path normalisation and the exact form of `p / name` are replaced by appending a component.
- Integer widths are not modelled: `st_size` narrowed to `int`, `st_nlink`, `time_t`, and overflow of `current_depth` on very deep trees.
- `directory_options` values outside 0..3 are not modelled. The operators can only produce such values from integers cast into the enumeration.
- Termination of a whole traversal is not proved. Following directory symlinks can revisit a directory forever through a cycle, as in the code. Each single `Advance` call is proved to terminate.
- Traversal.PopFrame, Iterators.Pop: the pruning effect of `pop()` is stated on handles (a popped frame's handle never returns to the stack) and not on paths, because the abstract filesystem allows a listing to repeat a name.
- The whole-traversal promise that a tree with N reachable entries yields each exactly once is not proved; only the per-step relation is.

## Findings

| source | as written | input that shows it | evidently intended | confidence | as-written member | corrected member |
|---|---|---|---|---|---|---|
| rec_dir_it.cpp:92-95 | the constructor pushes the root `DIR*` and calls `Advance()`. When that throws, the exception leaves the constructor of a partially built `iterator_impl`, so `~iterator_impl` never runs and the root handle (and any handle opened for it) is never closed | a root directory that opens, whose first name is not `.`/`..` and cannot be `lstat`-ed, with options `none`: the constructor throws `LstatFailed(root/name)` with handle 0 opened and nothing closed | every handle opened before the throw is closed, as the destructor would do | not executed | Traversal.ConstructAsWritten | Traversal.Construct |

=== FILE: entry.dfy ===
/** The `directory` class of stdlike: an immutable snapshot of one visited
    node. Its accessors (`path()`, `is_directory()`, ..., `last_write_time()`)
    are the fields of `Entry`. */
module Entries {
  import opened FileSystems

  datatype Entry = Entry(
    path: Path,
    isSymlink: bool,
    isDirectory: bool,
    isRegularFile: bool,
    isBlockFile: bool,
    isCharacterFile: bool,
    isSocket: bool,
    isFifo: bool,
    fileSize: int,
    hardLinkCount: int,
    lastWriteTime: int)

  /** How many of the six node-kind flags are set. */
  function KindCount(e: Entry): nat {
    (if e.isDirectory then 1 else 0) + (if e.isRegularFile then 1 else 0)
    + (if e.isBlockFile then 1 else 0) + (if e.isCharacterFile then 1 else 0)
    + (if e.isSocket then 1 else 0) + (if e.isFifo then 1 else 0)
  }

  /** The default-constructed `directory`. */
  function DefaultEntry(): (r: Entry)
    ensures r.path == [] && !r.isSymlink && KindCount(r) == 0
    ensures r.fileSize == 0 && r.hardLinkCount == 0 && r.lastWriteTime == 0
  {
    Entry([], false, false, false, false, false, false, false, 0, 0, 0)
  }

  /** `directory(p, st, is_symlink)`: the kind flags come from the file-type
      bits of `st`, the size is kept only for regular files. */
  function MakeEntry(p: Path, st: Stat, isSymlink: bool): (r: Entry)
    ensures r.path == p && r.isSymlink == isSymlink
    ensures KindCount(r) <= 1
    ensures r.fileSize == (if r.isRegularFile then st.size else 0)
    ensures r.isDirectory <==> IsDirectoryMode(st.mode)
    ensures r.isRegularFile <==> IsRegularMode(st.mode)
    ensures r.isBlockFile <==> IsBlockMode(st.mode)
    ensures r.isCharacterFile <==> IsCharacterMode(st.mode)
    ensures r.isSocket <==> IsSocketMode(st.mode)
    ensures r.isFifo <==> IsFifoMode(st.mode)
    ensures IsSymlinkMode(st.mode) ==> KindCount(r) == 0
    ensures r.hardLinkCount == st.linkCount && r.lastWriteTime == st.modifiedTime
  {
    var regular := IsRegularMode(st.mode);
    Entry(p, isSymlink,
          IsDirectoryMode(st.mode), regular, IsBlockMode(st.mode),
          IsCharacterMode(st.mode), IsSocketMode(st.mode), IsFifoMode(st.mode),
          if regular then st.size else 0,
          st.linkCount, st.modifiedTime)
  }

  /** Two entries built from the same path and metadata differ only in the
      symlink flag, which the metadata never sets. */
  lemma SymlinkFlagOnlyFromArgument(p: Path, st: Stat)
    ensures MakeEntry(p, st, true) == MakeEntry(p, st, false).(isSymlink := true)
  {
  }
}

=== FILE: filesystem.dfy ===
/** The operating-system services the iterator consumes, as an abstract
    filesystem: for every path, what `lstat`, `stat` and `opendir` return.
    A path missing from one of the maps is a path on which that call fails,
    so the failure sets are the complements of the map domains. An opened
    directory handle produces a fixed sequence of names through `readdir`
    and then either ends cleanly or reports a read error. */
module FileSystems {

  type Name = string

  /** A path is the sequence of its name components; `p / n` is `p + [n]`. */
  type Path = seq<Name>

  /** The fields of `struct stat` that the iterator reads. */
  datatype Stat = Stat(mode: nat, size: int, linkCount: int, modifiedTime: int)

  /** File-type bits of `st_mode` (POSIX `S_IFMT` and the `S_IF*` values). */
  const TypeMask: nat := 0xF000
  const TypeFifo: nat := 0x1000
  const TypeCharacter: nat := 0x2000
  const TypeDirectory: nat := 0x4000
  const TypeBlock: nat := 0x6000
  const TypeRegular: nat := 0x8000
  const TypeSymlink: nat := 0xA000
  const TypeSocket: nat := 0xC000

  /** `mode & S_IFMT` */
  function FileTypeBits(mode: nat): (r: nat)
    ensures r < 0x10000 && r % 0x1000 == 0
    ensures mode % 0x10000 == r + mode % 0x1000
  {
    mode / 0x1000 % 0x10 * 0x1000
  }

  /** The `S_ISDIR`, `S_ISREG`, ... macros. */
  predicate IsDirectoryMode(mode: nat) { FileTypeBits(mode) == TypeDirectory }
  predicate IsRegularMode(mode: nat) { FileTypeBits(mode) == TypeRegular }
  predicate IsBlockMode(mode: nat) { FileTypeBits(mode) == TypeBlock }
  predicate IsCharacterMode(mode: nat) { FileTypeBits(mode) == TypeCharacter }
  predicate IsSocketMode(mode: nat) { FileTypeBits(mode) == TypeSocket }
  predicate IsFifoMode(mode: nat) { FileTypeBits(mode) == TypeFifo }
  predicate IsSymlinkMode(mode: nat) { FileTypeBits(mode) == TypeSymlink }

  /** What `readdir` will produce on a freshly opened handle. */
  datatype Listing = Listing(names: seq<Name>, endsInError: bool)

  datatype FileSystem = FileSystem(
    lstat: map<Path, Stat>,
    stat: map<Path, Stat>,
    directories: map<Path, Listing>)
}

=== FILE: iterator.dfy ===
/** The public surface of `recursive_directory_iterator`. An iterator holds
    the shared traversal state, or no state at all once `++` or `pop()`
    reached the end and released it. Copies alias one state, so one value
    here stands for all of them. */
module Iterators {
  import opened Wrappers
  import opened FileSystems
  import opened Entries
  import opened Traversal
  import Options

  datatype Iterator = Iterator(impl: Option<State>)

  /** The held state, if any, satisfies the traversal invariant. */
  predicate WellFormed(it: Iterator) {
    it.impl.Some? ==> Valid(it.impl.value)
  }

  /** `is_end()`: a well-formed iterator is at its end exactly when it holds
      no state or no directory is open. */
  function IsEnd(it: Iterator): (r: bool)
    ensures WellFormed(it) ==> (r <==> it.impl.None? || it.impl.value.stack == [])
  {
    it.impl.None? || it.impl.value.atEnd
  }

  /** `operator*`: the current entry (the held state must exist). A live,
      positioned iterator's entry lies strictly below the root. */
  function Current(it: Iterator): (e: Entry)
    requires it.impl.Some?
    ensures WellFormed(it) && !IsEnd(it) && Positioned(it.impl.value) ==>
              var root := it.impl.value.stack[0].path;
              |root| < |e.path| && e.path[..|root|] == root
  {
    var s := it.impl.value;
    // both branches return the same entry; the first only brings in the
    // lemma that proves the entry lies below the root
    if Valid(s) && Positioned(s) then
      EntryBelowRoot(s);
      s.current
    else
      s.current
  }

  /** `end()` and the default constructor: a fresh state that is already at
      its end. */
  function End(): (r: Iterator)
    ensures WellFormed(r) && IsEnd(r) && r.impl.Some?
  {
    Iterator(Some(EndState(Options.None)))
  }

  /** `begin()` returns a copy of the iterator, which shares its state: the
      copy compares equal to it and reports the same depth. */
  function Begin(it: Iterator): (r: Iterator)
    ensures Equal(r, it) && IsEnd(r) == IsEnd(it)
    ensures WellFormed(it) ==> WellFormed(r) && Depth(r) == Depth(it)
  {
    it
  }

  /** `recursive_directory_iterator(path, options)`. */
  method Open(fs: FileSystem, root: Path, options: Options.DirectoryOptions) returns (r: Result<Iterator, Error>)
    ensures r.Success? ==> WellFormed(r.value) && r.value.impl.Some? && r.value.impl.value.options == options
    ensures Skips(options) ==> r.Success? || r.error.NotADirectory?
    ensures root !in fs.lstat ==>
              if Skips(options) then r.Success? && Equal(r.value, End()) else r == Failure(RootInaccessible(root))
    ensures root in fs.lstat && !IsDirectoryMode(fs.lstat[root].mode) ==> r == Failure(NotADirectory(root))
    ensures root in fs.lstat && IsDirectoryMode(fs.lstat[root].mode) && root !in fs.directories ==>
              if Skips(options) then r.Success? && Equal(r.value, End()) else r == Failure(OpenFailed(root))
    ensures r.Success? && !IsEnd(r.value) ==> Depth(r.value) >= 0 && IsChildPath(root, Current(r.value).path)
    ensures RootCheck(fs, root, options).None? && r.Success? ==>
              Advanced(fs, RootState(root, fs.directories[root], options), r.value.impl.value, None)
    ensures RootCheck(fs, root, options).None? && r.Failure? ==>
              exists t :: Advanced(fs, RootState(root, fs.directories[root], options), t, Some(r.error))
  {
    var c := Construct(fs, root, options);
    if c.Threw? {
      return Failure(c.error);
    }
    r := Success(Iterator(Some(c.state)));
    assert r.value.impl.value == c.state;
  }

  /** `operator++`: advance a live iterator; the state is released when the
      traversal ends; an iterator at its end is left alone. */
  method Increment(fs: FileSystem, it: Iterator) returns (r: Iterator, err: Option<Error>)
    requires WellFormed(it)
    ensures IsEnd(it) ==> r == it && err.None?
    ensures !IsEnd(it) && Skips(it.impl.value.options) ==> err.None?
    ensures !IsEnd(it) && err.None? ==> (IsEnd(r) <==> r.impl.None?)
    ensures !IsEnd(it) && err.Some? ==> r.impl.Some? && !IsEnd(r)
    ensures !IsEnd(it) && r.impl.Some? ==> r.impl.value.options == it.impl.value.options
    ensures !IsEnd(it) && r.impl.Some? ==>
              && |it.impl.value.closed| <= |r.impl.value.closed|
              && r.impl.value.closed[..|it.impl.value.closed|] == it.impl.value.closed
    ensures WellFormed(r)
    ensures !IsEnd(it) ==>
              var s := it.impl.value;
              && (err.None? && IsEnd(r) ==> PoppedExhausted(fs, s.options, s.stack, 0))
              && (err.None? && !IsEnd(r) ==> Yielded(fs, s, r.impl.value) && Positioned(r.impl.value))
              && (err.Some? ==> ThrewAt(fs, s, r.impl.value, err.value))
  {
    if IsEnd(it) {
      return it, None;
    }
    var s := it.impl.value;
    var t;
    t, err := Advance(fs, s);
    AdvanceExtendsLog(fs, s, t, err);
    if err.None? && t.atEnd {
      return Iterator(None), None;
    }
    return Iterator(Some(t)), err;
  }

  /** `operator==`: two ends are equal, an end and a live iterator are not,
      and two live iterators are equal when their entries have the same path. */
  function Equal(a: Iterator, b: Iterator): (r: bool)
    ensures IsEnd(a) && IsEnd(b) ==> r
    ensures IsEnd(a) != IsEnd(b) ==> !r
    ensures !IsEnd(a) && !IsEnd(b) ==> (r <==> Current(a).path == Current(b).path)
  {
    if IsEnd(a) && IsEnd(b) then true
    else if IsEnd(a) || IsEnd(b) then false
    else Current(a).path == Current(b).path
  }

  /** `operator!=`: exactly one is at its end, or both are live with
      entries on different paths. */
  function NotEqual(a: Iterator, b: Iterator): (r: bool)
    ensures r <==> IsEnd(a) != IsEnd(b) || (!IsEnd(a) && !IsEnd(b) && Current(a).path != Current(b).path)
  {
    !Equal(a, b)
  }

  /** `==` is an equivalence: reflexive, symmetric and transitive. */
  lemma EqualIsEquivalence(a: Iterator, b: Iterator, c: Iterator)
    ensures Equal(a, a)
    ensures Equal(a, b) == Equal(b, a)
    ensures Equal(a, b) && Equal(b, c) ==> Equal(a, c)
  {
  }

  /** `depth()`: the depth of a live iterator, -1 at the end. */
  function Depth(it: Iterator): (r: int)
    requires WellFormed(it)
    ensures r == -1 <==> IsEnd(it)
    ensures !IsEnd(it) ==> r >= 0 && r == |it.impl.value.stack| - 1
  {
    if it.impl.Some? && !it.impl.value.atEnd then it.impl.value.depth else -1
  }

  /** Between the root and a live iterator's entry there are `depth()`
      components, one more for an entry whose directory was not just opened. */
  lemma DepthCountsComponents(it: Iterator)
    requires WellFormed(it) && !IsEnd(it) && Positioned(it.impl.value)
    ensures var s := it.impl.value;
            && (Current(it).path == Top(s.stack).path ==> |Current(it).path| == |s.stack[0].path| + Depth(it))
            && (Current(it).path != Top(s.stack).path ==> |Current(it).path| == |s.stack[0].path| + Depth(it) + 1)
  {
    EntryDepth(it.impl.value);
  }

  /** `pop()`: close and remove the top frame, then advance; the state is
      released when that ends the traversal. */
  method Pop(fs: FileSystem, it: Iterator) returns (r: Iterator, err: Option<Error>)
    requires WellFormed(it)
    ensures WellFormed(r)
    ensures it.impl.None? || it.impl.value.stack == [] ==> r == it && err.None?
    ensures it.impl.Some? && it.impl.value.stack != [] ==>
              var s := it.impl.value;
              var h := Top(s.stack).handle;
              && (Skips(s.options) ==> err.None?)
              && (err.None? ==> (IsEnd(r) <==> r.impl.None?))
              && (err.None? && IsEnd(r) ==> PoppedExhausted(fs, s.options, Below(s.stack), 0))
              && (err.None? && !IsEnd(r) ==> Yielded(fs, PopTop(s), r.impl.value))
              && (err.Some? ==> r.impl.Some? && ThrewAt(fs, PopTop(s), r.impl.value, err.value))
              && (r.impl.Some? ==>
                    && r.impl.value.options == s.options
                    && h in r.impl.value.closed
                    && h !in TopDown(r.impl.value.stack)
                    && Survives(Below(s.stack), r.impl.value.stack, s.nextHandle))
  {
    if it.impl.None? || it.impl.value.stack == [] {
      return it, None;
    }
    var s := it.impl.value;
    var t;
    t, err := PopFrame(fs, s);
    assert Top(s.stack).handle in t.closed by {
      assert t.closed[..|s.closed| + 1][|s.closed|] == Top(s.stack).handle;
    }
    if err.None? && t.atEnd {
      return Iterator(None), None;
    }
    return Iterator(Some(t)), err;
  }
}

=== FILE: options.dfy ===
/** The `directory_options` enumeration of stdlike and its bitwise operators.

    The enumeration is an `int` underneath and the operators act on that
    integer bit by bit. Starting from the three named values they only ever
    produce a subset of the two flag bits, so a value here is an integer in
    0..3. */
module Options {

  newtype DirectoryOptions = x: int | 0 <= x < 4

  const None: DirectoryOptions := 0
  const FollowDirectorySymlink: DirectoryOptions := 1
  const SkipPermissionDenied: DirectoryOptions := 2

  /** Bit `k` of the underlying integer (only bits 0 and 1 can be set). */
  predicate Bit(o: DirectoryOptions, k: nat) {
    if k == 0 then o as int % 2 == 1
    else k == 1 && o as int / 2 == 1
  }

  /** The option value whose bit 0 is `low` and bit 1 is `high`. */
  function FromBits(low: bool, high: bool): (r: DirectoryOptions)
    ensures forall k: nat :: Bit(r, k) == (if k == 0 then low else k == 1 && high)
  {
    ((if low then 1 else 0) + (if high then 2 else 0)) as DirectoryOptions
  }

  /** Two option values with the same bits are the same value. */
  lemma SameBits(a: DirectoryOptions, b: DirectoryOptions)
    requires Bit(a, 0) == Bit(b, 0) && Bit(a, 1) == Bit(b, 1)
    ensures a == b
  {
  }

  /** Each named enumerator sets exactly the bit it is named after. */
  lemma EnumeratorBits()
    ensures forall k: nat :: !Bit(None, k)
    ensures forall k: nat :: Bit(FollowDirectorySymlink, k) <==> k == 0
    ensures forall k: nat :: Bit(SkipPermissionDenied, k) <==> k == 1
  {
  }

  /** `a | b` */
  function Or(a: DirectoryOptions, b: DirectoryOptions): (r: DirectoryOptions)
    ensures forall k: nat :: Bit(r, k) == (Bit(a, k) || Bit(b, k))
  {
    FromBits(Bit(a, 0) || Bit(b, 0), Bit(a, 1) || Bit(b, 1))
  }

  /** `a & b` */
  function And(a: DirectoryOptions, b: DirectoryOptions): (r: DirectoryOptions)
    ensures forall k: nat :: Bit(r, k) == (Bit(a, k) && Bit(b, k))
  {
    FromBits(Bit(a, 0) && Bit(b, 0), Bit(a, 1) && Bit(b, 1))
  }

  /** `a ^ b` */
  function Xor(a: DirectoryOptions, b: DirectoryOptions): (r: DirectoryOptions)
    ensures forall k: nat :: Bit(r, k) == (Bit(a, k) != Bit(b, k))
  {
    FromBits(Bit(a, 0) != Bit(b, 0), Bit(a, 1) != Bit(b, 1))
  }

  lemma OrCommutative(a: DirectoryOptions, b: DirectoryOptions)
    ensures Or(a, b) == Or(b, a)
  {
    SameBits(Or(a, b), Or(b, a));
  }

  lemma OrAssociative(a: DirectoryOptions, b: DirectoryOptions, c: DirectoryOptions)
    ensures Or(Or(a, b), c) == Or(a, Or(b, c))
  {
    SameBits(Or(Or(a, b), c), Or(a, Or(b, c)));
  }

  lemma OrIdentity(a: DirectoryOptions)
    ensures Or(a, None) == a && Or(None, a) == a
  {
    SameBits(Or(a, None), a);
    SameBits(Or(None, a), a);
  }

  lemma AndLaws(a: DirectoryOptions)
    ensures And(a, None) == None
    ensures And(a, a) == a
  {
    SameBits(And(a, None), None);
    SameBits(And(a, a), a);
  }

  lemma XorLaws(a: DirectoryOptions)
    ensures Xor(a, a) == None
    ensures Xor(a, None) == a
  {
    SameBits(Xor(a, a), None);
    SameBits(Xor(a, None), a);
  }

  /** `a & f == f` holds exactly when every bit of `f` is also set in `a`. */
  lemma AndIsSubset(a: DirectoryOptions, f: DirectoryOptions)
    ensures And(a, f) == f <==> forall k: nat :: Bit(f, k) ==> Bit(a, k)
  {
    if forall k: nat :: Bit(f, k) ==> Bit(a, k) {
      SameBits(And(a, f), f);
    }
  }

  /** `HasOption(options, flag)`: all of `flag`'s bits are present in `options`. */
  function HasOption(options: DirectoryOptions, flag: DirectoryOptions): (r: bool)
    ensures r <==> forall k: nat :: Bit(flag, k) ==> Bit(options, k)
  {
    AndIsSubset(options, flag);
    And(options, flag) == flag
  }

  /** Every option set contains the empty flag set. */
  lemma HasNone(options: DirectoryOptions)
    ensures HasOption(options, None)
  {
  }

  /** `HasOption` reads the two named flags independently of each other. */
  lemma FlagsAreIndependent(options: DirectoryOptions)
    ensures HasOption(options, FollowDirectorySymlink) <==> Bit(options, 0)
    ensures HasOption(options, SkipPermissionDenied) <==> Bit(options, 1)
    ensures HasOption(Or(options, SkipPermissionDenied), SkipPermissionDenied)
    ensures !HasOption(And(options, FollowDirectorySymlink), SkipPermissionDenied)
    ensures HasOption(Or(options, SkipPermissionDenied), FollowDirectorySymlink) == HasOption(options, FollowDirectorySymlink)
    ensures HasOption(And(options, FollowDirectorySymlink), FollowDirectorySymlink) == HasOption(options, FollowDirectorySymlink)
  {
    assert Bit(FollowDirectorySymlink, 0) && !Bit(FollowDirectorySymlink, 1);
    assert !Bit(SkipPermissionDenied, 0) && Bit(SkipPermissionDenied, 1);
  }

  /** `a |= b`: the new value of `a`, which the operator also returns. */
  function OrAssign(a: DirectoryOptions, b: DirectoryOptions): (a': DirectoryOptions)
    ensures HasOption(a', a) && HasOption(a', b)
    ensures forall f :: HasOption(a', f) && HasOption(f, a) && HasOption(f, b) ==> f == a'
  {
    Or(a, b)
  }

  /** `a &= b`: the new value of `a`, which the operator also returns. */
  function AndAssign(a: DirectoryOptions, b: DirectoryOptions): (a': DirectoryOptions)
    ensures HasOption(a, a') && HasOption(b, a')
    ensures forall f :: HasOption(a, f) && HasOption(b, f) ==> HasOption(a', f)
  {
    And(a, b)
  }

  /** `a ^= b`: the new value of `a`, which the operator also returns. */
  function XorAssign(a: DirectoryOptions, b: DirectoryOptions): (a': DirectoryOptions)
    ensures Xor(a', b) == a
    ensures a' == None <==> a == b
  {
    XorUndoes(a, b);
    Xor(a, b)
  }

  /** Applying `^ b` twice restores the original value; `a ^ b` is empty only when `a == b`. */
  lemma XorUndoes(a: DirectoryOptions, b: DirectoryOptions)
    ensures Xor(Xor(a, b), b) == a
    ensures Xor(a, b) == None <==> a == b
  {
    SameBits(Xor(Xor(a, b), b), a);
    if Xor(a, b) == None {
      assert !Bit(Xor(a, b), 0) && !Bit(Xor(a, b), 1);
      SameBits(a, b);
    }
    if a == b {
      XorLaws(a);
    }
  }
}

=== FILE: traversal.dfy ===
/** The traversal engine of `recursive_directory_iterator` (its `iterator_impl`):
    a stack of open directory handles, the entry last yielded, the depth and the
    end flag, advanced one entry at a time under the two traversal options. */
module Traversal {
  import opened Wrappers
  import opened FileSystems
  import opened Entries
  import Options

  /** The exceptions the engine throws, one per throw site. */
  datatype Error =
    | RootInaccessible(path: Path)   // lstat failed on the root
    | NotADirectory(path: Path)      // the root is not a directory
    | OpenFailed(path: Path)         // opendir failed
    | ReadFailed(path: Path)         // readdir reported an error
    | LstatFailed(path: Path)        // lstat failed on an entry
    | StatFailed(path: Path)         // stat failed on a symlink being followed

  /** Directory handles are numbered in the order they are opened. */
  type Handle = nat

  /** One element of `dir_stack`: an open handle, whose unread names are
      `unread`, and the path it was opened for. */
  datatype Frame = Frame(handle: Handle, path: Path, unread: seq<Name>, endsInError: bool)

  /** The traversal state. `nextHandle` counts the handles opened so far and
      `closed` logs every `closedir` call, in order. */
  datatype State = State(
    stack: seq<Frame>,
    current: Entry,
    options: Options.DirectoryOptions,
    depth: int,
    atEnd: bool,
    nextHandle: nat,
    closed: seq<Handle>)

  predicate Skips(options: Options.DirectoryOptions) {
    Options.HasOption(options, Options.SkipPermissionDenied)
  }

  predicate Follows(options: Options.DirectoryOptions) {
    Options.HasOption(options, Options.FollowDirectorySymlink)
  }

  function Top(stack: seq<Frame>): Frame
    requires |stack| > 0
  {
    stack[|stack| - 1]
  }

  /** The stack with its top frame removed. */
  function Below(stack: seq<Frame>): seq<Frame>
    requires |stack| > 0
  {
    stack[..|stack| - 1]
  }

  /* ---------------------------------------------------------------------
     Handle accounting
     --------------------------------------------------------------------- */

  /** The handles of `frames`, from the top of the stack down: the order in
      which popping every frame closes them. */
  function TopDown(frames: seq<Frame>): (r: seq<Handle>)
    ensures |r| == |frames|
  {
    if frames == [] then [] else [Top(frames).handle] + TopDown(Below(frames))
  }

  /** `TopDown` lists the handles from the top frame down to the bottom one. */
  lemma {:induction false} TopDownOrder(frames: seq<Frame>)
    ensures forall i :: 0 <= i < |frames| ==> TopDown(frames)[i] == frames[|frames| - 1 - i].handle
    decreases |frames|
  {
    if frames != [] {
      var below := Below(frames);
      TopDownOrder(below);
      assert TopDown(frames) == [Top(frames).handle] + TopDown(below);
      forall i | 1 <= i < |frames|
        ensures TopDown(frames)[i] == frames[|frames| - 1 - i].handle
      {
        assert TopDown(frames)[i] == TopDown(below)[i - 1];
        assert below[|below| - 1 - (i - 1)] == frames[|frames| - 1 - i];
      }
    }
  }

  /** The handles 0 .. n-1. */
  function Range(n: nat): seq<Handle> {
    if n == 0 then [] else Range(n - 1) + [n - 1]
  }

  /** Every handle ever opened is either still on the stack or has been
      closed, and exactly once overall. */
  predicate Accounted(s: State) {
    multiset(TopDown(s.stack)) + multiset(s.closed) == multiset(Range(s.nextHandle))
  }

  lemma {:induction false} RangeCount(n: nat, h: Handle)
    ensures multiset(Range(n))[h] == if h < n then 1 else 0
  {
    if n > 0 {
      RangeCount(n - 1, h);
    }
  }

  lemma {:induction false} TopDownBottom(f: Frame, rest: seq<Frame>)
    ensures TopDown([f] + rest) == TopDown(rest) + [f.handle]
    decreases |rest|
  {
    if rest != [] {
      assert Below([f] + rest) == [f] + Below(rest);
      TopDownBottom(f, Below(rest));
    }
  }

  /** No handle is closed twice. */
  lemma NoDoubleClose(s: State, h: Handle)
    requires Accounted(s)
    ensures multiset(s.closed)[h] <= 1
  {
    RangeCount(s.nextHandle, h);
  }

  /** A handle that has been closed is not on the stack. */
  lemma ClosedIsNotOpen(s: State, h: Handle)
    requires Accounted(s)
    ensures h in s.closed ==> h !in TopDown(s.stack)
  {
    RangeCount(s.nextHandle, h);
    assert multiset(TopDown(s.stack))[h] + multiset(s.closed)[h] == multiset(Range(s.nextHandle))[h];
  }

  /** The destructor: closes every frame still on the stack, from the top. */
  function Release(s: State): (closed: seq<Handle>)
    requires Accounted(s)
    ensures multiset(closed) == multiset(Range(s.nextHandle))
    ensures forall h: Handle :: multiset(closed)[h] == if h < s.nextHandle then 1 else 0
  {
    var closed := s.closed + TopDown(s.stack);
    forall h: Handle ensures multiset(closed)[h] == if h < s.nextHandle then 1 else 0 {
      RangeCount(s.nextHandle, h);
    }
    closed
  }

  /* ---------------------------------------------------------------------
     Stack shape
     --------------------------------------------------------------------- */

  predicate IsChildPath(parent: Path, child: Path) {
    |child| == |parent| + 1 && child[..|parent|] == parent
  }

  /** Each frame was opened for a child of the frame beneath it. */
  predicate Chain(stack: seq<Frame>) {
    forall i :: 0 < i < |stack| ==> IsChildPath(stack[i - 1].path, stack[i].path)
  }

  /** The invariant of `iterator_impl` between calls. */
  predicate Valid(s: State) {
    && Chain(s.stack)
    && Accounted(s)
    && (s.atEnd <==> s.stack == [])
    && (!s.atEnd ==> s.depth == |s.stack| - 1)
  }

  /** Frame paths grow by one component per level. */
  lemma {:induction false} ChainLength(stack: seq<Frame>, i: nat)
    requires Chain(stack) && i < |stack|
    ensures |stack[i].path| == |stack[0].path| + i
  {
    if i > 0 {
      ChainLength(stack, i - 1);
    }
  }

  /** `after` is `before` with some of its names read. */
  predicate Continues(before: Frame, after: Frame) {
    && after.handle == before.handle
    && after.path == before.path
    && after.endsInError == before.endsInError
    && |after.unread| <= |before.unread|
    && after.unread == before.unread[|before.unread| - |after.unread|..]
  }

  /** The names of `before` that `after` has read. */
  function Consumed(before: Frame, after: Frame): seq<Name>
    requires Continues(before, after)
  {
    before.unread[..|before.unread| - |after.unread|]
  }

  /** `after` is `before` with frames popped off the top and the new top
      frame possibly read further; the frames beneath it are untouched. */
  predicate Retains(before: seq<Frame>, after: seq<Frame>) {
    && |after| <= |before|
    && (|after| > 0 ==>
          && after[..|after| - 1] == before[..|after| - 1]
          && Continues(before[|after| - 1], after[|after| - 1]))
  }

  /* ---------------------------------------------------------------------
     Per-entry policy
     --------------------------------------------------------------------- */

  /** What happens to a name read from the top frame, once `.` and `..` are
      excluded: it is skipped, the traversal throws, or an entry is yielded
      and, when `descend` holds a listing, a frame is pushed for it. A failed
      `opendir` on a plain directory throws after the entry has already been
      stored as the current one; `stored` carries it. */
  datatype Decision =
    | Skip
    | Fail(error: Error, stored: Option<Entry>)
    | Yield(entry: Entry, descend: Option<Listing>)

  function Gate(options: Options.DirectoryOptions, e: Error): Decision {
    if Skips(options) then Skip else Fail(e, None)
  }

  function Descend(fs: FileSystem, options: Options.DirectoryOptions, entry: Entry, storedFirst: bool): Decision {
    if entry.path in fs.directories then Yield(entry, Some(fs.directories[entry.path]))
    else if Skips(options) then Yield(entry, None)
    else Fail(OpenFailed(entry.path), if storedFirst then Some(entry) else None)
  }

  /** Classification of the entry at `p` (lstat, optional stat of a
      followed symlink, optional opendir) under the option set. Failures
      are errors only when `skip_permission_denied` is unset, and skips
      happen only when it is set. */
  function Classify(fs: FileSystem, options: Options.DirectoryOptions, p: Path): (d: Decision)
    ensures Skips(options) ==> !d.Fail?
    ensures d.Skip? ==> Skips(options)
    ensures d.Fail? ==> d.error.path == p && !d.error.ReadFailed?
    ensures d.Yield? ==> p in fs.lstat && d.entry.path == p
  {
    if p !in fs.lstat then Gate(options, LstatFailed(p))
    else
      var st := fs.lstat[p];
      var isSymlink := IsSymlinkMode(st.mode);
      if isSymlink && Follows(options) && p !in fs.stat then Gate(options, StatFailed(p))
      else if isSymlink && Follows(options) && IsDirectoryMode(fs.stat[p].mode) then
        Descend(fs, options, MakeEntry(p, fs.stat[p], isSymlink), false)
      else if IsDirectoryMode(st.mode) then
        Descend(fs, options, MakeEntry(p, st, isSymlink), true)
      else
        Yield(MakeEntry(p, st, isSymlink), None)
  }

  /** What is yielded: the symlink flag always comes from lstat, and the
      metadata too, unless a followed symlink resolved to a directory. A
      failed lstat never yields. */
  lemma EntryPolicy(fs: FileSystem, options: Options.DirectoryOptions, p: Path)
    ensures var d := Classify(fs, options, p);
            && (p !in fs.lstat ==> !d.Yield?)
            && (d.Yield? ==> d.entry.isSymlink == IsSymlinkMode(fs.lstat[p].mode))
            && (d.Yield? && !(d.entry.isSymlink && Follows(options)) ==>
                  d.entry == MakeEntry(p, fs.lstat[p], d.entry.isSymlink))
            && (d.Yield? && d.entry.isSymlink && Follows(options) && d.entry.isDirectory ==>
                  p in fs.stat && d.entry == MakeEntry(p, fs.stat[p], true))
            && (d.Yield? && d.entry.isSymlink && Follows(options) && !d.entry.isDirectory ==>
                  d.entry == MakeEntry(p, fs.lstat[p], true))
            && (d.Fail? && d.stored.Some? ==>
                  d.error.OpenFailed? && p in fs.lstat && d.stored.value == MakeEntry(p, fs.lstat[p], false))
  {
  }

  /** When an entry is descended into: exactly when it is a directory that
      opens; one that does not open is still yielded only under
      `skip_permission_denied`; a symlink only under `follow_directory_symlink`. */
  lemma DescentPolicy(fs: FileSystem, options: Options.DirectoryOptions, p: Path)
    ensures var d := Classify(fs, options, p);
            && (d.Yield? && d.descend.Some? ==>
                  d.entry.isDirectory && p in fs.directories && d.descend.value == fs.directories[p])
            && (d.Yield? && d.entry.isDirectory && p in fs.directories ==> d.descend.Some?)
            && (d.Yield? && d.entry.isDirectory && p !in fs.directories ==> Skips(options))
            && (d.Yield? && d.entry.isSymlink && d.descend.Some? ==> Follows(options))
  {
  }

  /** Without `follow_directory_symlink` a symlink is yielded from its lstat
      data and never descended into; with it, a symlink whose target is not
      a directory is treated the same way. */
  lemma SymlinkPolicy(fs: FileSystem, options: Options.DirectoryOptions, p: Path)
    requires p in fs.lstat && IsSymlinkMode(fs.lstat[p].mode)
    ensures !Follows(options) ==> Classify(fs, options, p) == Yield(MakeEntry(p, fs.lstat[p], true), None)
    ensures Follows(options) && p in fs.stat && !IsDirectoryMode(fs.stat[p].mode) ==>
              Classify(fs, options, p) == Yield(MakeEntry(p, fs.lstat[p], true), None)
    ensures Follows(options) && p in fs.stat && IsDirectoryMode(fs.stat[p].mode) && p in fs.directories ==>
              Classify(fs, options, p) == Yield(MakeEntry(p, fs.stat[p], true), Some(fs.directories[p]))
  {
  }

  /** Setting `skip_permission_denied` changes the decision exactly at the
      failures: an lstat or stat failure becomes a skip, an opendir failure
      becomes a yield that does not descend, and nothing else changes. */
  lemma SkipOptionGatesErrors(fs: FileSystem, options: Options.DirectoryOptions, p: Path)
    ensures var strict := Classify(fs, Options.And(options, Options.FollowDirectorySymlink), p);
            var lenient := Classify(fs, Options.Or(options, Options.SkipPermissionDenied), p);
            && !strict.Skip? && !lenient.Fail?
            && (strict.Fail? && !strict.error.OpenFailed? <==> lenient.Skip?)
            && (strict.Fail? && strict.error.OpenFailed? <==>
                  lenient.Yield? && lenient.descend.None? && lenient.entry.isDirectory)
            && (strict.Fail? && strict.error.OpenFailed? ==> lenient.entry.path == p)
            && (!strict.Fail? ==> lenient == strict)
            && (lenient.Skip? <==>
                  || p !in fs.lstat
                  || (IsSymlinkMode(fs.lstat[p].mode) && Follows(options) && p !in fs.stat))
  {
    Options.FlagsAreIndependent(options);
  }

  /** Where each decision comes from, site by site: an lstat failure, and a
      followed symlink whose stat fails, are skipped or thrown; a readable
      entry that is not a directory (nor a followed symlink) is yielded from
      its lstat data; a plain directory that does not open throws with its
      entry stored, and a followed symlink to one throws without. */
  lemma FailureSites(fs: FileSystem, options: Options.DirectoryOptions, p: Path)
    ensures var d := Classify(fs, options, p);
            && (p !in fs.lstat ==> d == Gate(options, LstatFailed(p)))
            && (p in fs.lstat && IsSymlinkMode(fs.lstat[p].mode) && Follows(options) && p !in fs.stat ==>
                  d == Gate(options, StatFailed(p)))
            && (p in fs.lstat && !IsDirectoryMode(fs.lstat[p].mode)
                && !(IsSymlinkMode(fs.lstat[p].mode) && Follows(options)) ==>
                  d == Yield(MakeEntry(p, fs.lstat[p], IsSymlinkMode(fs.lstat[p].mode)), None))
            && (p in fs.lstat && IsDirectoryMode(fs.lstat[p].mode) && p !in fs.directories && !Skips(options) ==>
                  d == Fail(OpenFailed(p), Some(MakeEntry(p, fs.lstat[p], false))))
            && (p in fs.lstat && IsSymlinkMode(fs.lstat[p].mode) && Follows(options) && p in fs.stat
                && IsDirectoryMode(fs.stat[p].mode) && p !in fs.directories && !Skips(options) ==>
                  d == Fail(OpenFailed(p), None))
  {
  }

  /** A name the traversal reads and passes over without yielding. */
  predicate Skippable(fs: FileSystem, options: Options.DirectoryOptions, dir: Path, name: Name) {
    name == "." || name == ".." || Classify(fs, options, dir + [name]).Skip?
  }

  predicate AllSkippable(fs: FileSystem, options: Options.DirectoryOptions, dir: Path, names: seq<Name>) {
    forall i :: 0 <= i < |names| ==> Skippable(fs, options, dir, names[i])
  }

  /** Reading the rest of `f` yields nothing and throws nothing. */
  predicate Exhaustible(fs: FileSystem, options: Options.DirectoryOptions, f: Frame) {
    AllSkippable(fs, options, f.path, f.unread) && (f.endsInError ==> Skips(options))
  }

  /** The frames of `before` at index `kept` and above were popped, each one
      having nothing left to yield. */
  predicate PoppedExhausted(fs: FileSystem, options: Options.DirectoryOptions, before: seq<Frame>, kept: nat) {
    forall j :: kept <= j < |before| ==> Exhaustible(fs, options, before[j])
  }

  /** The index, in the stack before the call, of the frame the last name
      was read from; a frame pushed by the call sits above it. */
  function ReadFrom(s: State, t: State): int {
    if t.nextHandle != s.nextHandle then |t.stack| - 2 else |t.stack| - 1
  }

  /** `t` is the state after `s` that read names up to and including `name`
      from frame `k`, passing over every name it read before that one, and
      popping the exhausted frames above `k`. */
  predicate ReadUpTo(fs: FileSystem, s: State, t: State, k: int, name: Name) {
    && 0 <= k < |s.stack| && k < |t.stack|
    && Retains(s.stack, t.stack[..k + 1])
    && PoppedExhausted(fs, s.options, s.stack, k + 1)
    && t.closed == s.closed + TopDown(s.stack[k + 1..])
    && var before, after := s.stack[k].unread, t.stack[k].unread;
       && |after| < |before|
       && name == before[|before| - |after| - 1]
       && AllSkippable(fs, s.options, s.stack[k].path, before[..|before| - |after| - 1])
  }

  /** `t` yields the entry for the next name that is neither passed over nor
      an error, after the names and frames before it were passed over. */
  predicate Yielded(fs: FileSystem, s: State, t: State) {
    var k := ReadFrom(s, t);
    && 0 <= k < |s.stack|
    && IsChildPath(t.stack[k].path, t.current.path)
    && var name := t.current.path[|t.stack[k].path|];
       && name != "." && name != ".."
       && ReadUpTo(fs, s, t, k, name)
       && var d := Classify(fs, s.options, t.current.path);
          && d.Yield? && d.entry == t.current
          && (d.descend.Some? <==> t.nextHandle != s.nextHandle)
          && (t.nextHandle != s.nextHandle ==>
                && t.nextHandle == s.nextHandle + 1 && |t.stack| == k + 2
                && Top(t.stack) == Frame(s.nextHandle, t.current.path, d.descend.value.names, d.descend.value.endsInError))
  }

  /** `t` is where the call threw `e`: on a read error of frame `k`, all of
      whose names were passed over, or on the decision for a name of it
      other than `.` and `..`. The current entry is the one stored before
      the throw, if the decision stores one, and is otherwise unchanged. */
  predicate ThrewAt(fs: FileSystem, s: State, t: State, e: Error) {
    var k := |t.stack| - 1;
    && 0 <= k < |s.stack|
    && !Skips(s.options)
    && if e.ReadFailed? then
         && t.current == s.current
         && Retains(s.stack, t.stack)
         && PoppedExhausted(fs, s.options, s.stack, k + 1)
         && t.closed == s.closed + TopDown(s.stack[k + 1..])
         && t.stack[k].unread == [] && s.stack[k].endsInError
         && e.path == s.stack[k].path
         && AllSkippable(fs, s.options, s.stack[k].path, s.stack[k].unread)
       else
         && IsChildPath(s.stack[k].path, e.path)
         && var name := e.path[|s.stack[k].path|];
            && name != "." && name != ".."
            && ReadUpTo(fs, s, t, k, name)
            && var d := Classify(fs, s.options, e.path);
               && d.Fail? && d.error == e
               && t.current == if d.stored.Some? then d.stored.value else s.current
  }

  /** Where a yield leaves the current entry: a child of the top frame, or,
      for a directory just opened, the top frame itself. */
  predicate Positioned(s: State) {
    && !s.atEnd && |s.stack| > 0
    && (|| IsChildPath(Top(s.stack).path, s.current.path)
        || (&& |s.stack| >= 2
            && Top(s.stack).path == s.current.path
            && IsChildPath(s.stack[|s.stack| - 2].path, s.current.path)))
  }

  /** The depth reported with an entry: components between the root and the
      entry's parent, except that a directory whose frame was just pushed
      already reports the depth of its own children. */
  lemma EntryDepth(s: State)
    requires Valid(s) && Positioned(s)
    ensures s.current.path == Top(s.stack).path ==> |s.current.path| == |s.stack[0].path| + s.depth
    ensures s.current.path != Top(s.stack).path ==> |s.current.path| == |s.stack[0].path| + s.depth + 1
  {
    ChainLength(s.stack, |s.stack| - 1);
  }

  /** Every frame's path extends the root's path. */
  lemma {:induction false} ChainPrefix(stack: seq<Frame>, i: nat)
    requires Chain(stack) && i < |stack|
    ensures |stack[0].path| <= |stack[i].path| && stack[i].path[..|stack[0].path|] == stack[0].path
  {
    if i > 0 {
      ChainPrefix(stack, i - 1);
      var root, p := stack[0].path, stack[i - 1].path;
      assert IsChildPath(p, stack[i].path);
      assert stack[i].path[..|root|] == stack[i].path[..|p|][..|root|];
    }
  }

  /** A positioned entry lies strictly below the root of the walk. */
  lemma EntryBelowRoot(s: State)
    requires Valid(s) && Positioned(s)
    ensures var root := s.stack[0].path;
            |root| < |s.current.path| && s.current.path[..|root|] == root
  {
    var root := s.stack[0].path;
    var k := if IsChildPath(Top(s.stack).path, s.current.path) then |s.stack| - 1 else |s.stack| - 2;
    ChainPrefix(s.stack, k);
    var p := s.stack[k].path;
    assert s.current.path[..|root|] == s.current.path[..|p|][..|root|];
  }

  /* ---------------------------------------------------------------------
     Advance
     --------------------------------------------------------------------- */

  /** `pop()`'s and exhaustion's transition: close the top handle, pop it, decrement the depth. */
  function PopTop(t: State): (r: State)
    requires |t.stack| > 0
    ensures |r.stack| == |t.stack| - 1
  {
    t.(stack := Below(t.stack), depth := t.depth - 1, closed := t.closed + [Top(t.stack).handle])
  }

  /** `readdir` on the top handle returned its next name. */
  function ReadTop(t: State): (r: State)
    requires |t.stack| > 0 && Top(t.stack).unread != []
    ensures |r.stack| == |t.stack| && |Top(r.stack).unread| == |Top(t.stack).unread| - 1
  {
    var top := Top(t.stack);
    t.(stack := Below(t.stack) + [top.(unread := top.unread[1..])])
  }

  /** Opening a child directory: its handle and path go on top of the
      stack, and the depth goes up by one. */
  function PushFrame(t: State, p: Path, listing: Listing): State {
    t.(stack := t.stack + [Frame(t.nextHandle, p, listing.names, listing.endsInError)],
       depth := t.depth + 1, nextHandle := t.nextHandle + 1)
  }

  /** The loop invariant of `Advance`: `t` is `s` with exhausted frames
      popped and names read from the new top, none of them yielded. */
  predicate Scanning(fs: FileSystem, s: State, t: State) {
    && t.options == s.options && t.current == s.current
    && !t.atEnd && t.nextHandle == s.nextHandle
    && t.depth == |t.stack| - 1
    && Chain(t.stack) && Accounted(t)
    && Retains(s.stack, t.stack)
    && PoppedExhausted(fs, s.options, s.stack, |t.stack|)
    && (t.stack != [] ==>
          AllSkippable(fs, s.options, Top(t.stack).path, Consumed(s.stack[|t.stack| - 1], Top(t.stack))))
    && t.closed == s.closed + TopDown(s.stack[|t.stack|..])
  }

  /** What one call of `Advance` achieves. */
  predicate Advanced(fs: FileSystem, s: State, t: State, err: Option<Error>) {
    && t.options == s.options && t.depth == |t.stack| - 1
    && Chain(t.stack) && Accounted(t)
    && (Skips(s.options) ==> err.None?)
    && (err.None? ==> (t.atEnd <==> t.stack == []))
    && (err.None? && t.atEnd ==>
          && t.current == s.current && t.nextHandle == s.nextHandle
          && PoppedExhausted(fs, s.options, s.stack, 0)
          && t.closed == s.closed + TopDown(s.stack))
    && (err.None? && !t.atEnd ==> Yielded(fs, s, t) && Positioned(t))
    && (err.Some? ==> !t.atEnd && t.nextHandle == s.nextHandle && ThrewAt(fs, s, t, err.value))
  }

  lemma ScanStart(fs: FileSystem, s: State)
    requires !s.atEnd && s.depth == |s.stack| - 1
    requires Chain(s.stack) && Accounted(s)
    ensures Scanning(fs, s, s)
  {
    if s.stack != [] {
      assert Consumed(s.stack[|s.stack| - 1], Top(s.stack)) == [];
    }
  }

  lemma ScanEnd(fs: FileSystem, s: State, t: State)
    requires Scanning(fs, s, t) && t.stack == []
    ensures Advanced(fs, s, t.(atEnd := true), None)
  {
  }

  /** readdir reported an error and the option does not suppress it. */
  lemma ScanReadError(fs: FileSystem, s: State, t: State)
    requires Scanning(fs, s, t) && t.stack != []
    requires Top(t.stack).unread == [] && Top(t.stack).endsInError && !Skips(t.options)
    ensures Advanced(fs, s, t, Some(ReadFailed(Top(t.stack).path)))
  {
    var k := |t.stack| - 1;
    assert Consumed(s.stack[k], Top(t.stack)) == s.stack[k].unread;
    assert t.stack[..k + 1] == t.stack;
  }

  lemma PopKeepsChain(stack: seq<Frame>)
    requires Chain(stack) && |stack| > 0
    ensures Chain(Below(stack))
  {
  }

  lemma PopKeepsAccounted(t: State)
    requires Accounted(t) && |t.stack| > 0
    ensures Accounted(PopTop(t))
  {
    var u := PopTop(t);
    assert TopDown(t.stack) == [Top(t.stack).handle] + TopDown(u.stack);
  }

  /** Popping the exhausted top frame closes the handle the frame had in `s`. */
  lemma PopClosesInOrder(s: State, t: State)
    requires Retains(s.stack, t.stack) && |t.stack| > 0
    requires t.closed == s.closed + TopDown(s.stack[|t.stack|..])
    ensures PopTop(t).closed == s.closed + TopDown(s.stack[|t.stack| - 1..])
  {
    var n := |t.stack|;
    var f := s.stack[n - 1];
    assert s.stack[n - 1..] == [f] + s.stack[n..];
    TopDownBottom(f, s.stack[n..]);
  }

  /** After the pop the new top frame is still the one of `s`, unread. */
  lemma PopRetains(s: State, t: State)
    requires Retains(s.stack, t.stack) && |t.stack| > 0
    ensures Retains(s.stack, Below(t.stack))
    ensures |t.stack| > 1 ==> Consumed(s.stack[|t.stack| - 2], Top(Below(t.stack))) == []
  {
    var n := |t.stack|;
    var u := Below(t.stack);
    if n - 1 > 0 {
      assert u[..n - 2] == t.stack[..n - 2] == s.stack[..n - 2];
      assert u[n - 2] == t.stack[n - 2] == s.stack[n - 2];
    }
  }

  /** A top frame read to its end, every name passed over, joins the
      exhausted frames. */
  lemma PopExhausts(fs: FileSystem, s: State, t: State)
    requires Retains(s.stack, t.stack) && |t.stack| > 0
    requires PoppedExhausted(fs, s.options, s.stack, |t.stack|)
    requires Top(t.stack).unread == [] && (Top(t.stack).endsInError ==> Skips(s.options))
    requires AllSkippable(fs, s.options, Top(t.stack).path, Consumed(s.stack[|t.stack| - 1], Top(t.stack)))
    ensures PoppedExhausted(fs, s.options, s.stack, |t.stack| - 1)
  {
    var f := s.stack[|t.stack| - 1];
    assert Consumed(f, Top(t.stack)) == f.unread;
    assert Exhaustible(fs, s.options, f);
  }

  /** An exhausted top frame is closed and popped. */
  lemma ScanPop(fs: FileSystem, s: State, t: State)
    requires Scanning(fs, s, t) && t.stack != []
    requires Top(t.stack).unread == [] && (Top(t.stack).endsInError ==> Skips(t.options))
    ensures Scanning(fs, s, PopTop(t))
  {
    PopExhausts(fs, s, t);
    PopKeepsChain(t.stack);
    PopKeepsAccounted(t);
    PopClosesInOrder(s, t);
    PopRetains(s, t);
  }

  lemma ReadKeepsChain(t: State)
    requires Chain(t.stack) && t.stack != [] && Top(t.stack).unread != []
    ensures Chain(ReadTop(t).stack)
  {
    var u := ReadTop(t);
    forall i | 0 < i < |t.stack|
      ensures IsChildPath(u.stack[i - 1].path, u.stack[i].path)
    {
      assert u.stack[i].path == t.stack[i].path && u.stack[i - 1].path == t.stack[i - 1].path;
    }
  }

  /** Reading a name leaves the handles where they were. */
  lemma ReadKeepsAccounted(t: State)
    requires Accounted(t) && t.stack != [] && Top(t.stack).unread != []
    ensures Accounted(ReadTop(t))
  {
    var u := ReadTop(t);
    assert Below(u.stack) == Below(t.stack);
    assert TopDown(u.stack) == TopDown(t.stack);
  }

  /** Reading one name keeps the frame a continuation of the one in `s`. */
  lemma ReadKeepsShape(fs: FileSystem, s: State, t: State)
    requires Scanning(fs, s, t) && t.stack != [] && Top(t.stack).unread != []
    ensures var u := ReadTop(t);
            && |u.stack| == |t.stack| && Below(u.stack) == Below(t.stack)
            && Retains(s.stack, u.stack) && Chain(u.stack) && Accounted(u)
            && Top(u.stack).path == Top(t.stack).path
            && Consumed(s.stack[|t.stack| - 1], Top(u.stack))
                 == Consumed(s.stack[|t.stack| - 1], Top(t.stack)) + [Top(t.stack).unread[0]]
  {
    ReadKeepsChain(t);
    ReadKeepsAccounted(t);
    var n := |t.stack|;
    var before, top := s.stack[n - 1], Top(t.stack);
    var u := ReadTop(t);
    var m := |before.unread| - |top.unread|;
    assert top.unread[0] == before.unread[m];
    assert before.unread[..m + 1] == before.unread[..m] + [before.unread[m]];
    assert u.stack[..n - 1] == t.stack[..n - 1];
  }

  /** A name that is passed over leaves the loop invariant intact. */
  lemma ScanSkip(fs: FileSystem, s: State, t: State)
    requires Scanning(fs, s, t) && t.stack != [] && Top(t.stack).unread != []
    requires Skippable(fs, s.options, Top(t.stack).path, Top(t.stack).unread[0])
    ensures Scanning(fs, s, ReadTop(t))
  {
    ReadKeepsShape(fs, s, t);
    var n := |t.stack|;
    var c := Consumed(s.stack[n - 1], Top(t.stack));
    var name := Top(t.stack).unread[0];
    assert forall i :: 0 <= i < |c| + 1 ==> (c + [name])[i] == if i < |c| then c[i] else name;
  }

  /** The read name was the first one not passed over. */
  lemma ReadUpToHolds(fs: FileSystem, s: State, t: State, u: State, name: Name)
    requires Scanning(fs, s, t) && t.stack != [] && Top(t.stack).unread != []
    requires name == Top(t.stack).unread[0]
    requires |u.stack| >= |t.stack| && u.stack[..|t.stack|] == ReadTop(t).stack
    requires u.closed == t.closed
    ensures ReadUpTo(fs, s, u, |t.stack| - 1, name)
  {
    ReadKeepsShape(fs, s, t);
    var k := |t.stack| - 1;
    var r := ReadTop(t);
    assert u.stack[..k + 1] == r.stack;
    assert u.stack[k] == Top(r.stack);
    var before := s.stack[k].unread;
    var after := u.stack[k].unread;
    assert Consumed(s.stack[k], Top(r.stack)) == before[..|before| - |after|];
    assert before[..|before| - |after|] == before[..|before| - |after| - 1] + [name];
    assert name == before[|before| - |after| - 1];
  }

  /** Reading one name, whatever entry is then current, keeps the shape
      that every outcome of `Advance` promises. */
  lemma ReadShape(fs: FileSystem, s: State, t: State, current: Entry)
    requires Scanning(fs, s, t) && t.stack != [] && Top(t.stack).unread != []
    ensures var v := ReadTop(t).(current := current);
            && v.options == s.options && !v.atEnd && v.nextHandle == s.nextHandle
            && |v.stack| == |t.stack| && v.depth == |v.stack| - 1
            && Chain(v.stack) && Accounted(v)
  {
    ReadKeepsShape(fs, s, t);
  }

  /** A throw on the read name is the throw `ThrewAt` describes. */
  lemma FailThrew(fs: FileSystem, s: State, t: State, e: Error, current: Entry)
    requires Scanning(fs, s, t) && t.stack != [] && Top(t.stack).unread != []
    requires var name := Top(t.stack).unread[0];
             && name != "." && name != ".."
             && Classify(fs, s.options, Top(t.stack).path + [name]).Fail?
             && Classify(fs, s.options, Top(t.stack).path + [name]).error == e
    requires var d := Classify(fs, s.options, Top(t.stack).path + [Top(t.stack).unread[0]]);
             current == if d.stored.Some? then d.stored.value else s.current
    ensures ThrewAt(fs, s, ReadTop(t).(current := current), e)
  {
    var v := ReadTop(t).(current := current);
    var k := |t.stack| - 1;
    var name := Top(t.stack).unread[0];
    assert e.path == s.stack[k].path + [name];
    assert v.stack[..|t.stack|] == ReadTop(t).stack;
    ReadUpToHolds(fs, s, t, v, name);
    assert e.path[|s.stack[k].path|] == name;
  }

  /** The decision for the read name is to throw; the entry then current
      does not matter to what the throw promises. */
  lemma ScanFail(fs: FileSystem, s: State, t: State, e: Error, current: Entry)
    requires Scanning(fs, s, t) && t.stack != [] && Top(t.stack).unread != []
    requires var name := Top(t.stack).unread[0];
             && name != "." && name != ".."
             && Classify(fs, s.options, Top(t.stack).path + [name]).Fail?
             && Classify(fs, s.options, Top(t.stack).path + [name]).error == e
    requires var d := Classify(fs, s.options, Top(t.stack).path + [Top(t.stack).unread[0]]);
             current == if d.stored.Some? then d.stored.value else s.current
    ensures Advanced(fs, s, ReadTop(t).(current := current), Some(e))
  {
    ReadShape(fs, s, t, current);
    FailThrew(fs, s, t, e, current);
  }

  /** The read name is yielded without descending. */
  lemma ScanYieldLeaf(fs: FileSystem, s: State, t: State, entry: Entry)
    requires Scanning(fs, s, t) && t.stack != [] && Top(t.stack).unread != []
    requires var name := Top(t.stack).unread[0];
             name != "." && name != ".." &&
             Classify(fs, s.options, Top(t.stack).path + [name]) == Yield(entry, None)
    ensures Advanced(fs, s, ReadTop(t).(current := entry), None)
  {
    ReadKeepsShape(fs, s, t);
    var u := ReadTop(t).(current := entry);
    var k := |t.stack| - 1;
    var name := Top(t.stack).unread[0];
    var dir := Top(t.stack).path;
    assert entry.path == dir + [name];
    assert entry.path[|dir|] == name;
    assert entry.path[..|dir|] == dir;
    assert u.stack[k].path == dir;
    assert u.stack[..|t.stack|] == u.stack;
    ReadUpToHolds(fs, s, t, u, name);
    assert ReadFrom(s, u) == k;
    assert Yielded(fs, s, u);
    assert Positioned(u);
  }

  lemma PushKeepsChain(stack: seq<Frame>, f: Frame)
    requires Chain(stack) && stack != [] && IsChildPath(Top(stack).path, f.path)
    ensures Chain(stack + [f])
  {
    var v := stack + [f];
    forall i | 0 < i < |v|
      ensures IsChildPath(v[i - 1].path, v[i].path)
    {
      if i < |stack| {
        assert v[i] == stack[i] && v[i - 1] == stack[i - 1];
      }
    }
  }

  /** A pushed frame takes the next handle number, which keeps the account. */
  lemma PushKeepsAccounted(u: State, p: Path, listing: Listing)
    requires Accounted(u)
    ensures Accounted(PushFrame(u, p, listing))
  {
    var v := PushFrame(u, p, listing);
    var f := Top(v.stack);
    assert Below(v.stack) == u.stack;
    assert TopDown(v.stack) == [f.handle] + TopDown(u.stack);
    assert multiset(Range(v.nextHandle)) == multiset(Range(u.nextHandle)) + multiset{f.handle};
  }

  /** Pushing the frame of an opened child keeps the stack a chain of
      paths and accounts for the new handle. */
  lemma PushShape(fs: FileSystem, s: State, t: State, entry: Entry, listing: Listing)
    requires Scanning(fs, s, t) && t.stack != [] && Top(t.stack).unread != []
    requires entry.path == Top(t.stack).path + [Top(t.stack).unread[0]]
    ensures var v := PushFrame(ReadTop(t).(current := entry), entry.path, listing);
            && v.options == s.options && !v.atEnd && v.nextHandle == s.nextHandle + 1
            && v.depth == |v.stack| - 1 && |v.stack| == |t.stack| + 1
            && Chain(v.stack) && Accounted(v)
  {
    ReadKeepsShape(fs, s, t);
    var u := ReadTop(t).(current := entry);
    PushKeepsChain(u.stack, Frame(u.nextHandle, entry.path, listing.names, listing.endsInError));
    PushKeepsAccounted(u, entry.path, listing);
  }

  /** The read name is a directory that is opened and pushed. */
  lemma ScanYieldDescend(fs: FileSystem, s: State, t: State, entry: Entry, listing: Listing)
    requires Scanning(fs, s, t) && t.stack != [] && Top(t.stack).unread != []
    requires var name := Top(t.stack).unread[0];
             name != "." && name != ".." &&
             Classify(fs, s.options, Top(t.stack).path + [name]) == Yield(entry, Some(listing))
    ensures Advanced(fs, s, PushFrame(ReadTop(t).(current := entry), entry.path, listing), None)
  {
    var u := ReadTop(t).(current := entry);
    var v := PushFrame(u, entry.path, listing);
    var k := |t.stack| - 1;
    var name := Top(t.stack).unread[0];
    var dir := Top(t.stack).path;
    assert entry.path == dir + [name];
    PushShape(fs, s, t, entry, listing);
    assert entry.path[|dir|] == name;
    assert entry.path[..|dir|] == dir;
    assert v.stack[..|t.stack|] == u.stack;
    assert v.stack[k] == u.stack[k];
    ReadUpToHolds(fs, s, t, v, name);
    assert ReadFrom(s, v) == k;
    assert Yielded(fs, s, v);
    assert Positioned(v);
  }

  /** One call of `Advance`: it keeps the options, never throws under
      `skip_permission_denied`, and otherwise does what `Advanced` says. */
  method Advance(fs: FileSystem, s: State) returns (t: State, err: Option<Error>)
    requires !s.atEnd && s.depth == |s.stack| - 1
    requires Chain(s.stack) && Accounted(s)
    ensures t.options == s.options
    ensures Skips(s.options) ==> err.None?
    ensures t.depth == |t.stack| - 1
    ensures err.Some? ==> !t.atEnd && t.nextHandle == s.nextHandle
    ensures err.None? ==> (t.atEnd <==> t.stack == [])
    ensures Advanced(fs, s, t, err)
  {
    t, err := Scan(fs, s);
  }

  /** The loop of `Advance`: it reads names from the top frame, pops
      exhausted frames, and stops at the first entry it yields, at an
      error, or when the stack is empty. */
  method Scan(fs: FileSystem, s: State) returns (t: State, err: Option<Error>)
    requires !s.atEnd && s.depth == |s.stack| - 1
    requires Chain(s.stack) && Accounted(s)
    ensures Advanced(fs, s, t, err)
  {
    t := s;
    ScanStart(fs, s);
    while t.stack != []
      invariant Scanning(fs, s, t)
      decreases |t.stack|, if t.stack == [] then 0 else |Top(t.stack).unread|
    {
      var top := Top(t.stack);
      if top.unread == [] {
        // readdir returned no entry: a read error, or the end of the directory
        if top.endsInError && !Skips(t.options) {
          ScanReadError(fs, s, t);
          return t, Some(ReadFailed(top.path));
        }
        ScanPop(fs, s, t);
        t := PopTop(t);
        continue;
      }
      var name := top.unread[0];
      if name == "." || name == ".." {
        ScanSkip(fs, s, t);
        t := ReadTop(t);
        continue;
      }
      var full := top.path + [name];
      match Classify(fs, t.options, full)
      case Skip =>
        ScanSkip(fs, s, t);
        t := ReadTop(t);
      case Fail(e, stored) =>
        // the opendir failure of a plain directory stores the entry first
        var current := if stored.Some? then stored.value else t.current;
        ScanFail(fs, s, t, e, current);
        t := ReadTop(t).(current := current);
        return t, Some(e);
      case Yield(entry, descend) =>
        if descend.Some? {
          ScanYieldDescend(fs, s, t, entry, descend.value);
          t := PushFrame(ReadTop(t).(current := entry), full, descend.value);
        } else {
          ScanYieldLeaf(fs, s, t, entry);
          t := ReadTop(t).(current := entry);
        }
        return t, None;
    }
    ScanEnd(fs, s, t);
    t := t.(atEnd := true);
    return t, None;
  }

  /** Every frame of `after` that existed before the call (its handle is
      below `firstNew`) sits at the same index as in `before`, only read further. */
  predicate Survives(before: seq<Frame>, after: seq<Frame>, firstNew: nat) {
    forall i :: 0 <= i < |after| && after[i].handle < firstNew ==> i < |before| && Continues(before[i], after[i])
  }

  lemma RetainsSurvives(before: seq<Frame>, after: seq<Frame>, firstNew: nat)
    requires Retains(before, after)
    ensures Survives(before, after, firstNew)
  {
    forall i | 0 <= i < |after| && after[i].handle < firstNew
      ensures i < |before| && Continues(before[i], after[i])
    {
      if i < |after| - 1 {
        assert after[..|after| - 1][i] == before[..|after| - 1][i];
      }
    }
  }

  lemma PushSurvives(before: seq<Frame>, kept: seq<Frame>, f: Frame, firstNew: nat)
    requires Retains(before, kept) && f.handle == firstNew
    ensures Survives(before, kept + [f], firstNew)
  {
    RetainsSurvives(before, kept, firstNew);
    assert forall i :: 0 <= i < |kept| ==> (kept + [f])[i] == kept[i];
  }

  lemma YieldSurvives(fs: FileSystem, s: State, t: State)
    requires Yielded(fs, s, t)
    ensures Survives(s.stack, t.stack, s.nextHandle)
    ensures var k := ReadFrom(s, t); 0 <= k < |s.stack| && t.stack[..k] == s.stack[..k]
  {
    var k := ReadFrom(s, t);
    assert t.stack[..k] == t.stack[..k + 1][..k];
    if t.nextHandle != s.nextHandle {
      assert t.stack == t.stack[..k + 1] + [Top(t.stack)];
      PushSurvives(s.stack, t.stack[..k + 1], Top(t.stack), s.nextHandle);
    } else {
      assert t.stack[..k + 1] == t.stack;
      RetainsSurvives(s.stack, t.stack, s.nextHandle);
    }
  }

  lemma ThrowSurvives(fs: FileSystem, s: State, t: State, e: Error)
    requires ThrewAt(fs, s, t, e)
    ensures Survives(s.stack, t.stack, s.nextHandle)
    ensures var k := |t.stack| - 1; 0 <= k < |s.stack| && t.stack[..k] == s.stack[..k]
  {
    assert t.stack[..|t.stack|] == t.stack;
    RetainsSurvives(s.stack, t.stack, s.nextHandle);
  }

  /** `Advance` only reads and pops the frames it is given, and pushes at most one new one. */
  lemma AdvanceSurvivors(fs: FileSystem, s: State, t: State, err: Option<Error>)
    requires Advanced(fs, s, t, err)
    ensures Survives(s.stack, t.stack, s.nextHandle)
    ensures err.Some? || !t.atEnd ==>
              var k := if err.None? then ReadFrom(s, t) else |t.stack| - 1;
              0 <= k < |s.stack| && t.stack[..k] == s.stack[..k]
  {
    if err.Some? {
      ThrowSurvives(fs, s, t, err.value);
    } else if !t.atEnd {
      YieldSurvives(fs, s, t);
    }
  }

  lemma YieldExtendsLog(fs: FileSystem, s: State, t: State)
    requires Yielded(fs, s, t)
    ensures |s.closed| <= |t.closed| && t.closed[..|s.closed|] == s.closed
  {
    var k := ReadFrom(s, t);
    assert t.closed == s.closed + TopDown(s.stack[k + 1..]);
  }

  lemma ThrowExtendsLog(fs: FileSystem, s: State, t: State, e: Error)
    requires ThrewAt(fs, s, t, e)
    ensures |s.closed| <= |t.closed| && t.closed[..|s.closed|] == s.closed
  {
    assert t.closed == s.closed + TopDown(s.stack[|t.stack|..]);
  }

  /** `Advance` only appends to the log of closed handles. */
  lemma AdvanceExtendsLog(fs: FileSystem, s: State, t: State, err: Option<Error>)
    requires Advanced(fs, s, t, err)
    ensures |s.closed| <= |t.closed| && t.closed[..|s.closed|] == s.closed
  {
    if err.Some? {
      ThrowExtendsLog(fs, s, t, err.value);
    } else if !t.atEnd {
      YieldExtendsLog(fs, s, t);
    } else {
      assert t.closed == s.closed + TopDown(s.stack);
    }
  }

  /** Once closed, a handle never returns to the stack of any later state. */
  lemma ClosedStaysClosed(s: State, t: State, h: Handle)
    requires Accounted(t) && h in s.closed
    requires |s.closed| <= |t.closed| && t.closed[..|s.closed|] == s.closed
    ensures h !in TopDown(t.stack)
  {
    assert h in t.closed[..|s.closed|];
    ClosedIsNotOpen(t, h);
  }

  /** `pop()` on a live state: the top handle is closed and its frame
      removed, whether or not it was exhausted, then the traversal advances. */
  method PopFrame(fs: FileSystem, s: State) returns (t: State, err: Option<Error>)
    requires Valid(s) && s.stack != []
    ensures t.depth == |t.stack| - 1
    ensures |s.closed| < |t.closed| && t.closed[..|s.closed| + 1] == s.closed + [Top(s.stack).handle]
    ensures Top(s.stack).handle !in TopDown(t.stack)
    ensures Survives(Below(s.stack), t.stack, s.nextHandle)
    ensures Advanced(fs, PopTop(s), t, err)
  {
    PopKeepsChain(s.stack);
    PopKeepsAccounted(s);
    var u := PopTop(s);
    t, err := Advance(fs, u);
    AdvanceSurvivors(fs, u, t, err);
    AdvanceExtendsLog(fs, u, t, err);
    assert t.closed[..|s.closed| + 1] == u.closed;
    ClosedStaysClosed(u, t, Top(s.stack).handle);
  }

  /* ---------------------------------------------------------------------
     Construction
     --------------------------------------------------------------------- */

  /** The outcome of `iterator_impl(path, opts)`: the state, or the exception
      it threw with the handles it had opened and the ones it had closed. */
  datatype Construction =
    | Constructed(state: State)
    | Threw(error: Error, handlesOpened: nat, closed: seq<Handle>)

  /** The state of an iterator that is at its end before it started. */
  function EndState(options: Options.DirectoryOptions): (s: State)
    ensures Valid(s) && s.atEnd && s.options == options
  {
    State([], DefaultEntry(), options, 0, true, 0, [])
  }

  /** The state right after the root directory was opened. */
  function RootState(root: Path, listing: Listing, options: Options.DirectoryOptions): State {
    State([Frame(0, root, listing.names, listing.endsInError)], DefaultEntry(), options, 0, false, 1, [])
  }

  /** The root is an openable directory whose first name cannot be lstat-ed,
      and the option that would suppress that is not set. */
  predicate FirstChildUnreadable(fs: FileSystem, root: Path, options: Options.DirectoryOptions) {
    && root in fs.lstat && IsDirectoryMode(fs.lstat[root].mode)
    && root in fs.directories && |fs.directories[root].names| > 0
    && !Skips(options)
    && var n := fs.directories[root].names[0];
       n != "." && n != ".." && root + [n] !in fs.lstat
  }

  lemma TopDownContains(frames: seq<Frame>, i: nat)
    requires i < |frames|
    ensures frames[i].handle in TopDown(frames)
    decreases |frames|
  {
    if i < |frames| - 1 {
      TopDownContains(Below(frames), i);
    }
  }

  /** The root's first name is not passed over. */
  lemma FirstNameNotSkippable(fs: FileSystem, root: Path, options: Options.DirectoryOptions)
    requires FirstChildUnreadable(fs, root, options)
    ensures var n := fs.directories[root].names[0];
            && Classify(fs, options, root + [n]) == Fail(LstatFailed(root + [n]), None)
            && !Skippable(fs, options, root, n)
  {
  }

  /** Only the root's first name can be the first one not passed over. */
  lemma ReadFirstName(fs: FileSystem, root: Path, options: Options.DirectoryOptions, idx: nat)
    requires FirstChildUnreadable(fs, root, options)
    requires idx < |fs.directories[root].names|
    requires AllSkippable(fs, options, root, fs.directories[root].names[..idx])
    ensures idx == 0
  {
    FirstNameNotSkippable(fs, root, options);
  }

  /** The yielded entry is the frame's path plus the name read last. */
  lemma YieldedEntryPath(fs: FileSystem, s: State, t: State)
    requires Yielded(fs, s, t)
    ensures var k := ReadFrom(s, t);
            var before, after := s.stack[k].unread, t.stack[k].unread;
            && |after| < |before|
            && t.current.path == s.stack[k].path + [before[|before| - |after| - 1]]
            && AllSkippable(fs, s.options, s.stack[k].path, before[..|before| - |after| - 1])
            && Classify(fs, s.options, t.current.path).Yield?
  {
    var k := ReadFrom(s, t);
    assert t.stack[..k + 1][k] == t.stack[k];
    var cur := t.current.path;
    assert cur == cur[..|t.stack[k].path|] + [cur[|t.stack[k].path|]];
  }

  lemma FirstAdvanceNotAtEnd(fs: FileSystem, root: Path, options: Options.DirectoryOptions)
    requires FirstChildUnreadable(fs, root, options)
    ensures !PoppedExhausted(fs, options, RootState(root, fs.directories[root], options).stack, 0)
  {
    var s := RootState(root, fs.directories[root], options);
    FirstNameNotSkippable(fs, root, options);
    assert !Exhaustible(fs, options, s.stack[0]);
  }

  lemma FirstAdvanceYieldsNothing(fs: FileSystem, root: Path, options: Options.DirectoryOptions, t: State)
    requires FirstChildUnreadable(fs, root, options)
    ensures !Yielded(fs, RootState(root, fs.directories[root], options), t)
  {
    var s := RootState(root, fs.directories[root], options);
    if Yielded(fs, s, t) {
      YieldedEntryPath(fs, s, t);
      assert ReadFrom(s, t) == 0;
      ReadFirstName(fs, root, options, |s.stack[0].unread| - |t.stack[0].unread| - 1);
      FirstNameNotSkippable(fs, root, options);
    }
  }

  /** A throw from the freshly opened root leaves exactly the root frame. */
  lemma FirstThrowFrame(fs: FileSystem, root: Path, listing: Listing, options: Options.DirectoryOptions, t: State, e: Error)
    requires ThrewAt(fs, RootState(root, listing, options), t, e)
    ensures |t.stack| == 1 && t.stack[0].path == root
    ensures t.closed == [] && TopDown(t.stack) == [0]
  {
    assert t.stack[..1] == t.stack;
    assert TopDown(t.stack) == [t.stack[0].handle];
  }

  /** From the freshly opened root, the name read before stopping is the
      root's first name. */
  lemma FirstReadIsFirstName(fs: FileSystem, root: Path, options: Options.DirectoryOptions, t: State, name: Name)
    requires FirstChildUnreadable(fs, root, options)
    requires ReadUpTo(fs, RootState(root, fs.directories[root], options), t, 0, name)
    ensures name == fs.directories[root].names[0]
  {
    var names := fs.directories[root].names;
    ReadFirstName(fs, root, options, |names| - |t.stack[0].unread| - 1);
  }

  /** The root's first name stops a read-error throw. */
  lemma FirstThrowNotRead(fs: FileSystem, root: Path, options: Options.DirectoryOptions, t: State, e: Error)
    requires FirstChildUnreadable(fs, root, options)
    requires ThrewAt(fs, RootState(root, fs.directories[root], options), t, e)
    ensures !e.ReadFailed?
  {
    if e.ReadFailed? {
      FirstThrowFrame(fs, root, fs.directories[root], options, t, e);
      FirstNameNotSkippable(fs, root, options);
    }
  }

  /** A throw other than a read error names the root's first name. */
  lemma FirstThrowPath(fs: FileSystem, root: Path, options: Options.DirectoryOptions, t: State, e: Error)
    requires FirstChildUnreadable(fs, root, options)
    requires ThrewAt(fs, RootState(root, fs.directories[root], options), t, e) && !e.ReadFailed?
    ensures e.path == root + [fs.directories[root].names[0]]
  {
    var s := RootState(root, fs.directories[root], options);
    FirstThrowFrame(fs, root, fs.directories[root], options, t, e);
    var k := |t.stack| - 1;
    assert ReadUpTo(fs, s, t, k, e.path[|s.stack[k].path|]);
    assert k == 0 && s.stack[k].path == root;
    FirstReadIsFirstName(fs, root, options, t, e.path[|root|]);
    assert e.path == root + [e.path[|root|]];
  }

  /** The decision for the root's first name is its lstat failure. */
  lemma FirstNameFailure(fs: FileSystem, root: Path, options: Options.DirectoryOptions, e: Error)
    requires FirstChildUnreadable(fs, root, options)
    requires e.path == root + [fs.directories[root].names[0]]
    requires Classify(fs, options, e.path).Fail? && Classify(fs, options, e.path).error == e
    ensures e == LstatFailed(root + [fs.directories[root].names[0]])
  {
    FirstNameNotSkippable(fs, root, options);
  }

  /** The throw is the lstat failure of the root's first name. */
  lemma FirstThrowIsLstat(fs: FileSystem, root: Path, options: Options.DirectoryOptions, t: State, e: Error)
    requires FirstChildUnreadable(fs, root, options)
    requires ThrewAt(fs, RootState(root, fs.directories[root], options), t, e)
    ensures e == LstatFailed(root + [fs.directories[root].names[0]])
  {
    FirstThrowNotRead(fs, root, options, t, e);
    FirstThrowPath(fs, root, options, t, e);
    FirstNameFailure(fs, root, options, e);
  }

  lemma FirstAdvanceThrowsLstat(fs: FileSystem, root: Path, options: Options.DirectoryOptions, t: State, e: Error)
    requires FirstChildUnreadable(fs, root, options)
    requires ThrewAt(fs, RootState(root, fs.directories[root], options), t, e)
    ensures e == LstatFailed(root + [fs.directories[root].names[0]])
    ensures t.closed == [] && TopDown(t.stack) == [0]
  {
    FirstThrowFrame(fs, root, fs.directories[root], options, t, e);
    FirstThrowIsLstat(fs, root, options, t, e);
  }

  /** The first `Advance` from the root state throws when the root's first
      name cannot be lstat-ed, with the root frame still open. */
  lemma FirstAdvanceThrows(fs: FileSystem, root: Path, options: Options.DirectoryOptions, t: State, err: Option<Error>)
    requires FirstChildUnreadable(fs, root, options)
    requires Advanced(fs, RootState(root, fs.directories[root], options), t, err)
    ensures err == Some(LstatFailed(root + [fs.directories[root].names[0]]))
    ensures t.nextHandle == 1 && t.closed == [] && TopDown(t.stack) == [0]
  {
    FirstAdvanceNotAtEnd(fs, root, options);
    FirstAdvanceYieldsNothing(fs, root, options, t);
    if err.Some? {
      FirstAdvanceThrowsLstat(fs, root, options, t, err.value);
    }
  }

  /** After the first `Advance` from a freshly opened root, the root frame
      is at the bottom of whatever is left on the stack, a yielded entry is a
      child of the root, and on a throw the root handle is still open. */
  lemma FirstAdvanceKeepsRoot(fs: FileSystem, root: Path, listing: Listing, options: Options.DirectoryOptions,
                              t: State, err: Option<Error>)
    requires Advanced(fs, RootState(root, listing, options), t, err)
    ensures t.stack != [] ==> t.stack[0].handle == 0 && t.stack[0].path == root
    ensures err.None? && !t.atEnd ==> IsChildPath(root, t.current.path)
    ensures err.Some? ==> 0 in TopDown(t.stack) && 0 !in t.closed
  {
    var s := RootState(root, listing, options);
    if err.Some? {
      assert t.stack[..|t.stack|] == t.stack;
    } else if !t.atEnd {
      var k := ReadFrom(s, t);
      assert t.stack[..k + 1][0] == t.stack[0];
    }
    if err.Some? {
      TopDownContains(t.stack, 0);
      ClosedIsNotOpen(t, 0);
    }
  }

  /** The constructor pushes the opened root and advances once: the
      first entry, if any, is a child of the root, whose frame stays at the
      bottom of the stack; a throw leaves the root handle open. */
  method OpenRoot(fs: FileSystem, root: Path, options: Options.DirectoryOptions) returns (t: State, err: Option<Error>)
    requires root in fs.directories
    ensures t.options == options && t.depth == |t.stack| - 1 && Chain(t.stack) && Accounted(t)
    ensures Skips(options) ==> err.None?
    ensures err.None? ==> (t.atEnd <==> t.stack == [])
    ensures t.stack != [] ==> t.stack[0].handle == 0 && t.stack[0].path == root
    ensures err.None? && !t.atEnd ==> IsChildPath(root, t.current.path)
    ensures err.Some? ==> 0 in TopDown(t.stack) && 0 !in t.closed
    ensures FirstChildUnreadable(fs, root, options) ==>
              && err == Some(LstatFailed(root + [fs.directories[root].names[0]]))
              && t.nextHandle == 1 && t.closed == [] && TopDown(t.stack) == [0]
    ensures Advanced(fs, RootState(root, fs.directories[root], options), t, err)
  {
    t, err := Advance(fs, RootState(root, fs.directories[root], options));
    FirstAdvanceKeepsRoot(fs, root, fs.directories[root], options, t, err);
    if FirstChildUnreadable(fs, root, options) {
      FirstAdvanceThrows(fs, root, options, t, err);
    }
  }

  /** The outcomes of the constructor decided before the first `Advance`:
      the root cannot be lstat-ed, is not a directory, or cannot be opened.
      None when the root directory opens. */
  function RootCheck(fs: FileSystem, root: Path, options: Options.DirectoryOptions): (r: Option<Construction>)
    ensures r.None? <==> root in fs.lstat && IsDirectoryMode(fs.lstat[root].mode) && root in fs.directories
    ensures r.Some? && r.value.Constructed? ==> Skips(options) && r.value.state == EndState(options)
    ensures r.Some? && r.value.Threw? ==>
              && r.value.handlesOpened == 0 && r.value.closed == [] && r.value.error.path == root
              && (r.value.error.RootInaccessible? <==> root !in fs.lstat)
              && (r.value.error.NotADirectory? <==> root in fs.lstat && !IsDirectoryMode(fs.lstat[root].mode))
    ensures r.Some? && Skips(options) ==> r.value.Constructed? || r.value.error.NotADirectory?
    ensures root in fs.lstat && !IsDirectoryMode(fs.lstat[root].mode) ==> r == Some(Threw(NotADirectory(root), 0, []))
    ensures r.Some? && r.value.Threw? && root in fs.lstat && IsDirectoryMode(fs.lstat[root].mode) ==>
              r.value.error == OpenFailed(root)
  {
    if root !in fs.lstat then
      Some(if Skips(options) then Constructed(EndState(options)) else Threw(RootInaccessible(root), 0, []))
    else if !IsDirectoryMode(fs.lstat[root].mode) then
      Some(Threw(NotADirectory(root), 0, []))
    else if root !in fs.directories then
      Some(if Skips(options) then Constructed(EndState(options)) else Threw(OpenFailed(root), 0, []))
    else
      None
  }

  /** `iterator_impl(path, opts)` as written: when the first `Advance` throws,
      the exception leaves the constructor of a partially built object, so its
      destructor never runs and the handles on its stack are never closed. */
  method ConstructAsWritten(fs: FileSystem, root: Path, options: Options.DirectoryOptions) returns (c: Construction)
    ensures c.Constructed? ==> Valid(c.state) && c.state.options == options
    ensures c.Threw? && c.handlesOpened > 0 ==> 0 !in c.closed
    ensures FirstChildUnreadable(fs, root, options) ==>
              c == Threw(LstatFailed(root + [fs.directories[root].names[0]]), 1, [])
    ensures RootCheck(fs, root, options).Some? ==> c == RootCheck(fs, root, options).value
    ensures RootCheck(fs, root, options).None? && c.Threw? ==>
              exists t :: && Advanced(fs, RootState(root, fs.directories[root], options), t, Some(c.error))
                          && c.handlesOpened == t.nextHandle && c.closed == t.closed
    ensures RootCheck(fs, root, options).None? && c.Constructed? ==>
              Advanced(fs, RootState(root, fs.directories[root], options), c.state, None)
  {
    var early := RootCheck(fs, root, options);
    if early.Some? {
      return early.value;
    }
    var t, err := OpenRoot(fs, root, options);
    if err.Some? {
      // the exception leaves the constructor with the stack as it is
      c := Threw(err.value, t.nextHandle, t.closed);
      assert Advanced(fs, RootState(root, fs.directories[root], options), t, Some(c.error));
      return c;
    }
    return Constructed(t);
  }

  /** The constructor once the root directory has opened: the first
      `Advance` decides the outcome, and a throw releases the handles. */
  method ConstructOpened(fs: FileSystem, root: Path, options: Options.DirectoryOptions) returns (c: Construction)
    requires RootCheck(fs, root, options).None?
    ensures FirstChildUnreadable(fs, root, options) ==>
              c == Threw(LstatFailed(root + [fs.directories[root].names[0]]), 1, [0])
    ensures Skips(options) ==> c.Constructed?
    ensures c.Threw? ==> multiset(c.closed) == multiset(Range(c.handlesOpened))
    ensures c.Constructed? ==> Valid(c.state) && c.state.options == options
    ensures c.Constructed? && !c.state.atEnd ==>
              && c.state.stack[0].handle == 0 && c.state.stack[0].path == root
              && IsChildPath(root, c.state.current.path)
    ensures c.Constructed? ==> Advanced(fs, RootState(root, fs.directories[root], options), c.state, None)
    ensures c.Threw? ==> exists t :: Advanced(fs, RootState(root, fs.directories[root], options), t, Some(c.error))
  {
    var t, err := OpenRoot(fs, root, options);
    if err.Some? {
      c := Threw(err.value, t.nextHandle, Release(t));
      assert Advanced(fs, RootState(root, fs.directories[root], options), t, Some(c.error));
      return c;
    }
    return Constructed(t);
  }

  /** `iterator_impl(path, opts)` with the handles released when the first
      `Advance` throws, as the destructor would have done. */
  method Construct(fs: FileSystem, root: Path, options: Options.DirectoryOptions) returns (c: Construction)
    ensures RootCheck(fs, root, options).Some? ==> c == RootCheck(fs, root, options).value
    ensures FirstChildUnreadable(fs, root, options) ==>
              c == Threw(LstatFailed(root + [fs.directories[root].names[0]]), 1, [0])
    ensures Skips(options) ==> c.Constructed? || c.error.NotADirectory?
    ensures c.Threw? ==> multiset(c.closed) == multiset(Range(c.handlesOpened))
    ensures c.Constructed? ==> Valid(c.state) && c.state.options == options
    ensures c.Constructed? && !c.state.atEnd ==>
              && c.state.stack[0].handle == 0 && c.state.stack[0].path == root
              && IsChildPath(root, c.state.current.path)
    ensures RootCheck(fs, root, options).None? && c.Constructed? ==>
              Advanced(fs, RootState(root, fs.directories[root], options), c.state, None)
    ensures RootCheck(fs, root, options).None? && c.Threw? ==>
              exists t :: Advanced(fs, RootState(root, fs.directories[root], options), t, Some(c.error))
  {
    var early := RootCheck(fs, root, options);
    if early.Some? {
      return early.value;
    }
    c := ConstructOpened(fs, root, options);
  }
}

=== FILE: wrappers.dfy ===
/** Option and Result types shared by the other modules. */
module Wrappers {

  /** A value that may be absent. */
  datatype Option<+T> = None | Some(value: T)

  /** The outcome of an operation that can throw: a value or the error it threw. */
  datatype Result<+T, +E> = Success(value: T) | Failure(error: E)
}
